=== FILE: README.md ===
# Scroll-driven character scene: decision logic in Dafny

A scroll-driven 3D page moves a rigged character through a set of page sections. As the reader
scrolls, its camera, clips and a particle "clump" change. Underneath the rendering sits a small
body of deterministic decision logic. This project models that logic as pure state transitions
over immutable records and proves properties about it.

- **Animation-table helpers** (`AnimationUtils`, over `Clips` and `Sequences`). The character's
  actions form a table of named clip actions, each with weight, enabled/running/paused flags,
  time scale, local time and clip duration. The helpers stop or reset every action, list the
  active ones heaviest first, and guess the current clip by a fixed priority (WALKING, then
  progress, then effective weight, then raw weight). They also run a transition from a detected
  source clip to a target clip through the mixer's `finished` event.
- **Scroll-progress controller** (`ScrollController`). This is a list of clip actions, each
  bound to a window of scroll progress and kept ordered by where its window starts. `update`
  has a jitter dead-band, a direction test, a clamped local progress and window-based
  activation. `dispose` stops everything.
- **Particle clump** (`Clump`). This covers the imperative handle the scene drives
  (`toggleShield`, `explode`, `permanentExplosion`, `implode`, `setShieldProperties`,
  `setActive`) and the two per-frame callbacks, reduced to the flags `active`, `visible`,
  `shimmer`, `permanentlyExploded` and mesh presence.
- **Scene director** (`Scene`). This is the set-up that registers one scroll trigger per page
  section and the cleanup that kills them. It also covers the enter/leave/enter-back/leave-back
  callbacks of sections 0 to 7, the one-shot PUSH latch, and the delayed permanent explosion
  the latch schedules. Each trigger firing and each timer firing is an event, and any sequence
  of events may happen.
- **Smooth scrolling** (`SmoothScroll`). This covers the scrollable distance, the clamped wheel
  target and the eased per-frame step of the current offset.

The engine primitives the helpers call (`stop`, `reset`, `play`, `fadeIn`, `fadeOut`,
`setLoop`, `clampWhenFinished`, `crossFadeTo`) are modelled by their effect on the action's
fields, following the animation engine's `AnimationAction`:
- `stop` halts and resets;
- `reset` unpauses, enables, rewinds and clears any fade;
- `play` schedules the action;
- a fade is recorded by its direction and duration;
- `crossFadeTo` fades the source out and the target in.

Where the code and its comments disagree, the model follows the code:
- `stopAllAnimations` defaults `fullReset` to `true` (its doc comment says `false`);
- `update` leaves `previousProgress` alone for a change below 0.001;
- WALKING's priority ignores `paused` and `timeScale`;
- section 4's leave guards read `isActive`, which the clump's handle does not define, so
  leaving the section never deactivates the clump and re-entering it always runs the
  activation.

## Model

| member | source | states |
|---|---|---|
| Sequences.SortDesc | src/utils/animationUtils.js:169 | The comparator sort returns a permutation of its input ordered by the key, largest first |
| Sequences.SortHeadIsFirstMax | src/utils/animationUtils.js:229-241 | The sort is stable: its head is the first element with the largest key, so ties go to the earlier property |
| Sequences.Filter | src/utils/animationUtils.js:142-154 | The filter keeps exactly the elements satisfying the predicate, each as often as in the input |
| Clips.Lookup | src/utils/animationUtils.js:214-219 | `actions[name]` is an action exactly when some property with that name holds a non-null one, and it is that one |
| AnimationUtils.StopAllAnimations | src/utils/animationUtils.js:86-100 | Excluded and null properties are untouched. With a full reset, every other action ends halted, rewound, at weight 0 and with the same clip; otherwise it is only fading out over 0.2 s |
| AnimationUtils.ResetAnimationState | src/utils/animationUtils.js:107-119 | No table gives no table. Otherwise every non-null action ends halted, rewound, at weight 0 and disabled, with the properties and their null-ness unchanged |
| AnimationUtils.ResetAnimationStateIdempotent | src/utils/animationUtils.js:107-119 | Resetting twice is resetting once |
| AnimationUtils.GetActiveAnimations | src/utils/animationUtils.js:136-172 | No table gives []. Otherwise the result is a permutation of exactly the non-null entries with positive weight that are enabled (in strict mode also running, unpaused, non-zero time scale), sorted by weight non-increasing |
| AnimationUtils.GetCurrentAnimations | src/utils/animationUtils.js:126-128 | The strict list holds exactly the non-strict entries that are effectively playing, heaviest first |
| AnimationUtils.StrictIsSubsetOfLoose | src/utils/animationUtils.js:148-153 | The strict result is a sub-multiset of the non-strict one |
| AnimationUtils.GetCurrentAnimationName | src/utils/animationUtils.js:179-254 | The result is null exactly when there is no table or no action has positive weight; any other result names an action of positive weight |
| AnimationUtils.WalkingWins | src/utils/animationUtils.js:213-224 | With WALKING running, weighted and more than 5% through its clip, the answer is WALKING whatever the other actions do |
| AnimationUtils.RunningChoice | src/utils/animationUtils.js:227-242 | Otherwise, with actions running, the answer is the first running action of largest progress if that progress exceeds 10%, else the first of largest effective weight |
| AnimationUtils.IdleChoice | src/utils/animationUtils.js:245-251 | With nothing running, the answer is the first action of the largest positive weight |
| AnimationUtils.ActiveHeadIsHeaviest | src/utils/animationUtils.js:28-31 | The head of the active list is an active action no other active action outweighs; the list is empty exactly when nothing is active |
| AnimationUtils.SourceOf | src/utils/animationUtils.js:26-32 | An explicit source is kept; otherwise the source is the heaviest active action, and there is none exactly when nothing is active; a source exists exactly when `HasSource` holds |
| AnimationUtils.PlayDirectly | src/utils/animationUtils.js:35-47 | Without a source, every action but the target is silenced; the target is rewound, fading in and playing, with its weight kept |
| AnimationUtils.ReplaySource | src/utils/animationUtils.js:57-64 | With a source, every action but source and target is silenced; the source replays once, clamped and fading in; a distinct target is untouched |
| AnimationUtils.PlayAnimationTransition | src/utils/animationUtils.js:12-66 | An undefined target changes nothing; no property appears, disappears or changes null-ness |
| AnimationUtils.RunListener | src/utils/animationUtils.js:68-77 | The listener rewinds, fades in and plays the target, even when the target is its own source, and fades a distinct source out over the cross-fade time |
| AnimationUtils.Finished | src/utils/animationUtils.js:66-77 | The `finished` event runs the registered listeners and leaves none registered |
| AnimationUtils.TransitionToOutsideTarget | src/utils/animationUtils.js:35-66 | A defined target outside the table still runs the transition: every action but the source is silenced, so without a source nothing carries weight, and with one the source replays and the pair's listener is registered |
| AnimationUtils.UndefinedTargetIsNoOp | src/utils/animationUtils.js:21-24 | An undefined target leaves actions and listeners unchanged |
| AnimationUtils.TransitionWithoutSource | src/utils/animationUtils.js:34-48 | Without a source, no listener is added and only the target can still carry weight |
| AnimationUtils.TransitionWithSource | src/utils/animationUtils.js:56-66 | With a source, exactly one listener for the pair is added, every other action is silenced, the source replays once, and the target waits untouched |
| AnimationUtils.TransitionWithSourceCarries | src/utils/animationUtils.js:56-64 | With a source, only source and target can still carry weight |
| AnimationUtils.FinishedStartsTarget | src/utils/animationUtils.js:56-77 | After the `finished` event, for a source distinct from the target, the target plays from the start, fading in over the cross-fade time, the source fades out, and no listener is left; this holds even when listeners of earlier transitions are still registered, because the newest runs last |
| AnimationUtils.FinishedPlaysTarget | src/utils/animationUtils.js:56-77 | For any source, the target itself included, the `finished` event leaves no listener and the target playing from the start, fading in over the cross-fade time, because the target's fade-in follows the source's fade-out in the listener |
| AnimationUtils.RunListenersAppend | src/utils/animationUtils.js:66-77 | A listener registered last runs after every earlier one, on the table they leave |
| ScrollController.Fresh | src/utils/animationControlSystem.js:18-23 | A pushed entry keeps its window and action and starts not playing with weight 0 |
| ScrollController.AddAnimation | src/utils/animationControlSystem.js:17-28 | The list grows by exactly the new entry and ends sorted ascending by trigger point |
| ScrollController.LocalProgress | src/utils/animationControlSystem.js:54-57 | Local progress lies in [0, 1]: the fraction of the window inside it, 0 before it, 1 after it |
| ScrollController.MixerTime | src/utils/animationControlSystem.js:58-64 | The mixer time set lies in [0, clip duration] |
| ScrollController.Activate | src/utils/animationControlSystem.js:40-51 | A non-playing entry whose half-open window holds the progress starts playing, its action rewound, set to play once with clamping, and played; nothing else changes |
| ScrollController.Scrub | src/utils/animationControlSystem.js:53-72 | A playing entry gets its mixer time set and stops playing once progress is outside its closed window |
| ScrollController.UpdateAnim | src/utils/animationControlSystem.js:39-73 | After one loop iteration the entry plays inside its window and never outside the closed window, keeping its window; a newly started entry's action is restarted before the scrub |
| ScrollController.Update | src/utils/animationControlSystem.js:33-76 | A change below the jitter threshold changes nothing, `previousProgress` included; any other sets `previousProgress` and keeps the list's length, windows and order |
| ScrollController.UpdateActivation | src/utils/animationControlSystem.js:39-73 | After an update that is not ignored, an entry plays whenever progress is in its window and never when outside the closed window |
| ScrollController.UpdateStarts | src/utils/animationControlSystem.js:45-51 | An entry newly inside its window is rewound, set to play once with clamping and played before its mixer is scrubbed; after the update it is playing, scheduled, once and clamped |
| ScrollController.UpdateScrubs | src/utils/animationControlSystem.js:53-64 | The mixer time is local progress times clip length scrolling forward and its complement scrolling back, within [0, clip] |
| ScrollController.Dispose | src/utils/animationControlSystem.js:81-86 | The list ends empty and every action that was in it is stopped |
| ScrollController.DisposeIdempotent | src/utils/animationControlSystem.js:81-86 | Disposing twice equals disposing once, and the second call stops nothing |
| ScrollController.RunKeepsOrder | src/utils/animationControlSystem.js:17-86 | Whatever the sequence of calls, the list stays sorted by trigger point |
| Clump.Mount | src/components/Clump.jsx:72-75 | The clump starts inactive, shield hidden, no shimmer, not exploded |
| Clump.ToggleShield | src/components/Clump.jsx:80-84 | `visible` becomes `show`, shimmer restarts only when showing, the call returns `show`, and no other flag changes |
| Clump.Explode | src/components/Clump.jsx:87-112 | Without the mesh it returns false and changes nothing; otherwise it pushes outward and returns true, a permanent explosion marking exploded and inactive but keeping the shield as it was |
| Clump.PermanentExplosion | src/components/Clump.jsx:115-142 | Without the mesh it returns false and changes nothing; otherwise exploded, inactive, hidden, and returns true |
| Clump.Implode | src/components/Clump.jsx:145-164 | It succeeds exactly when the clump is active, not exploded and has its mesh; no flag changes either way |
| Clump.SetShieldProperties | src/components/Clump.jsx:167-173 | Each defined property replaces the current one, each undefined one is kept |
| Clump.SetShieldPropertiesIdempotent | src/components/Clump.jsx:167-173 | Applying the same properties twice equals applying them once |
| Clump.SetActive | src/components/Clump.jsx:176-182 | Reactivating an exploded clump returns false and changes nothing; otherwise `active` becomes the argument, which is returned |
| Clump.ShimmerFrame | src/components/Clump.jsx:192-196 | Shimmer grows only while visible and below 1, and stays in [0, 1] |
| Clump.PhysicsFrame | src/components/Clump.jsx:203-241 | Forces run exactly when active, not exploded and meshed; then the shield shows when a particle is within twice the radius and hides when none is |
| Clump.ExplodedForever | src/components/Clump.jsx:78-241 | Once exploded, the clump stays exploded and inactive whatever happens, and shimmer never leaves [0, 1] |
| Clump.NoReactivation | src/components/Clump.jsx:176-182 | After a permanent explosion, no later `setActive(true)` succeeds or activates the clump |
| Scene.Mount | src/components/AnimationManager.jsx:72-86 | At mount the PUSH latch is clear and nothing is registered or scheduled |
| Scene.CleanupTimeline | src/components/AnimationManager.jsx:316-335 | No trigger, main timeline or explosion timeout is left, and the latch and everything else are kept |
| Scene.CleanupIdempotent | src/components/AnimationManager.jsx:316-335 | A second cleanup changes nothing |
| Scene.CreateSectionTimeline | src/components/AnimationManager.jsx:220-265 | Each call appends exactly one trigger to the cleanup list |
| Scene.MoveRotator | src/components/AnimationManager.jsx:105-118 | The rotator is asked to move only when it offers `moveY` |
| Scene.DeactivateClump | src/components/AnimationManager.jsx:622-624 | A mounted clump ends inactive, its explosion flag kept |
| Scene.ActivateClump | src/components/AnimationManager.jsx:631-635 | A mounted clump's shield shows; it becomes active unless exploded |
| Scene.Opening | src/components/AnimationManager.jsx:378-385 | With JUMP and WALKING the character ends on WALKING and one delayed earth start is pending |
| Scene.RegisterUpper | src/components/AnimationManager.jsx:390-529 | Sections 0 to 3 are registered in order, section 1 only with a SALUTE clip |
| Scene.RegisterLower | src/components/AnimationManager.jsx:629-827 | Sections 4 to 7 are registered in order |
| Scene.Setup | src/components/AnimationManager.jsx:338-832 | Without a ready character nothing happens; with the character gone, the effect stops after the cleanup and the new main timeline, registering nothing; otherwise exactly the sections 0 to 7 (1 only with SALUTE) are registered, each once, the timeout is cleared, the camera re-centred, the clump inactive and the latch kept |
| Scene.SetupTwice | src/components/AnimationManager.jsx:338-341 | A second set-up registers the same triggers, never a duplicate |
| Scene.IntroCallback | src/components/AnimationManager.jsx:390-465 | With the character mounted, section 0 entry and section 1 leave-back walk with the earth turning, and section 1 entry salutes with the earth stopped; without it each callback stops at its first call on the character, so only section 1 entry has re-centred the camera by then |
| Scene.CameraCallback | src/components/AnimationManager.jsx:473-597 | Sections 2 and 3 point the camera at the rotation and the carousel on entry and back on leave-back |
| Scene.EnterFinale | src/components/AnimationManager.jsx:684-776 | The first entry with the character mounted sets the latch and schedules one timeout (1800 ms after PUSH, else 1500 ms); later entries only re-centre the camera |
| Scene.EnterCloseUp | src/components/AnimationManager.jsx:781-818 | FACE plays only before the PUSH, else IDLE when available, else the clip is unchanged |
| Scene.Callback | src/components/AnimationManager.jsx:390-827 | Only section 5 touches the latch, timeout or trigger list, and no callback makes the clump explode |
| Scene.OnSection | src/components/AnimationManager.jsx:235-258 | An unregistered (or killed) trigger runs nothing; no callback changes the trigger list |
| Scene.ExplosionFires | src/components/AnimationManager.jsx:742-752 | The timeout explodes a mounted clump for good, stops the earth, and clears itself either way |
| Scene.EarthTimerFires | src/components/AnimationManager.jsx:384 | The delayed start turns the earth on |
| Scene.PushCompletes | src/components/AnimationManager.jsx:714-727 | When PUSH completes the character moves on to IDLE when available |
| Scene.PushAtMostOnce | src/components/AnimationManager.jsx:702-771 | The latch never clears during a mount, and the explosion is scheduled at most once and triggered at most once |
| Scene.OneExplosionPerMount | src/components/AnimationManager.jsx:702-771 | From mount, at most one explosion is ever triggered |
| Scene.CleanupLosesExplosion | src/components/AnimationManager.jsx:327-331 | A cleanup that clears a pending explosion after the latch is set means the clump never explodes for the rest of the mount |
| Scene.LeaveBackRestoresCamera | src/components/AnimationManager.jsx:453-596 | Leaving sections 1 to 3 backwards requests the camera target that entering the previous section requested; with the character mounted, leaving section 1 backwards resumes section 0's walk and earth rotation |
| Scene.NoCharacterNoCallbacks | src/components/AnimationManager.jsx:341-363 | Without the character the set-up never registers a section, so from mount no callback runs and the PUSH latch stays clear |
| Scene.LeavingClumpSectionKeepsClump | src/components/AnimationManager.jsx:658-671 | Section 4's leave callbacks change nothing |
| Scene.ShieldReturnsAfterExplosion | src/components/AnimationManager.jsx:672-678 | Re-entering section 4 after the explosion shows the shield again, while the clump stays exploded and inactive |
| SmoothScroll.UpdateMaxScroll | src/utils/useSmoothScroll.jsx:33-35 | The scrollable distance is the height beyond one viewport, never negative |
| SmoothScroll.OnWheel | src/utils/useSmoothScroll.jsx:43-48 | The target moves by the scaled delta when that stays in range and is clamped to [0, max] otherwise |
| SmoothScroll.Step | src/utils/useSmoothScroll.jsx:56-60 | The container's offset is minus the current offset, and the distance to the target shrinks by the factor 1 - ease |
| SmoothScroll.Init | src/utils/useSmoothScroll.jsx:67-76 | After start-up both offsets and the container's translation are 0 and the distance is measured |
| SmoothScroll.StepApproaches | src/utils/useSmoothScroll.jsx:57 | With ease in (0, 1], a step never overshoots, never increases the distance, shrinks it when ease < 1, and a current offset on the target stays there |
| SmoothScroll.StepsDistance | src/utils/useSmoothScroll.jsx:56-60 | After n frames the remaining distance is the initial one times (1 - ease)^n |
| SmoothScroll.WheelAndStepKeepInv | src/utils/useSmoothScroll.jsx:43-60 | Wheel events and frames keep target and current offset within [0, max] |
| SmoothScroll.ResizeCanStrandTarget | src/utils/useSmoothScroll.jsx:33-35 | A resize that shrinks the page can leave the target beyond the new maximum |
| SmoothScroll.WheelReclamps | src/utils/useSmoothScroll.jsx:47 | The next wheel event brings the target back into [0, max] |

## Left out

- Tween timing and easing, the camera-target interpolation ticker, and the camera-position and
  rotator tweens are time-driven library behaviour. This includes the scrubbed section-0
  camera tween and the position moves of sections 3, 5 and 6. Each callback is modelled by
  the camera target and rotator position it asks for: `Scene.cameraTarget` is the target
  requested last, not where the camera ends up.
- Overlapping camera-target tweens are left out. `setCameraTarget` never kills an earlier tween
  or its ticker, and each tween copies its own destination when it completes, so the camera
  ends on the target of the tween that finishes last. Entering section 5 within 0.2 s of
  entering section 3 leaves it on the carousel target although HomeTarget was requested last.
  The same holds for the set-up's direct re-centre, which a still-running tween overwrites and
  which the cleanup does not stop.
- The scroll-trigger library's own state machine decides which callback fires when. The model
  accepts any sequence of firings. The triggers' start/end/scrub options, the `onUpdate`
  logging and the killing of foreign triggers through `ScrollTrigger.getAll()` are not modelled.
- Physics impulses and forces and their random magnitudes belong to a foreign engine. An
  impulse is recorded by its direction and nominal force. The closest particle's distance is a
  parameter of `Clump.PhysicsFrame`.
- React state and refs, re-render batching and stale closures are framework plumbing. A handle
  call reads the current state. `setShieldProperties` assigns to the render's props, which the
  next render restores; the model keeps the new properties.
- The `setInterval` readiness poll is left out. The character the scene mounts comes from
  `Kreaton_A` (`src/components/SceneCanvas.jsx:17`), which is not part of this model;
  `src/components/Kreaton.jsx` is a variant that nothing imports. As mounted in
  `src/components/SceneCanvas.jsx:83-88`, the director receives no `scrollContainerRef`, so
  evaluating `scrollContainerRef.current` in the effect's dependency list
  (`src/components/AnimationManager.jsx:832`) throws on every render, before any effect runs,
  whatever the character's handle. The model does not follow that wiring: it takes readiness
  (character ready and scroll container mounted, the guard at
  `src/components/AnimationManager.jsx:339`) as the parameter `Config.ready`, and assumes a
  handle that exposes all four members the director uses: `getAnimationNames`,
  `transitionAnimation`, `transitionFromCurrentToAnimation` and `actions`. Section 5's "one
  timeout scheduled" relies on `actions`. The character is taken as a presence flag plus a
  set of clip names. A clip change is recorded as the clip the character is asked to end on.
- The earth's rotation ticker (the angle) is left out; only whether it rotates is kept.
- `getObject`, `getShield` and `isPermanentlyExploded` are plain getters of the clump handle.
  The last one is the `permanentlyExploded` field itself.
- DOM wiring is left out: the wheel and resize listeners, `preventDefault`, and the
  `requestAnimationFrame` loop, which the hook's cleanup does not cancel. A wheel event, a
  resize and a frame are each one function call.
- Logging and console output are left out.
- IEEE floating point is left out. Weights, progress, times and offsets are Dafny reals.
  Divisions by a clip duration or a window duration require it to be positive (`PosReal`).
- `action.isRunning` is a method of the engine's action, so the code's unparenthesised
  `action.isRunning` is always truthy. The model keeps it as a flag that is set by `play` and
  cleared by `stop`. Every property above holds for any value of the flag.
- AnimationUtils.StopAllAnimations: the exclusion list is a set of property names. The code
  compares action objects. The two agree while each clip has exactly one action.
- ScrollController.UpdateAnim: the scrub leaves the entry's action as the activation left it;
  the time and pause state that `mixer.setTime` gives it are not modelled. Only the mixer time
  is recorded.
- ScrollController.UpdateStarts: states the restart of the action before the scrub, not its
  time after the update, for the same reason.
- AnimationUtils.PlayAnimationTransition: the mixer's table is always present. With a missing
  table the code throws in `stopAllAnimations` for any defined target; that case is not
  modelled. A target outside the table is a name bound to no action in it.
- AnimationUtils.GetCurrentAnimationName: requires every property of the table to hold an
  action, because the code reads every value's fields before anything else and throws on a
  null one.
- AnimationUtils.SourceOf: an explicit source that is not an action of the table is treated as
  absent, which falls back to auto-detection. The code would use such a foreign action as it is.
- AnimationUtils.Finished: the mixer's `finished` event fires when any of its actions finishes.
  The model lets it fire at any point and does not model the warp of `crossFadeTo`.
- ScrollController.Update: each entry's mixer time is recorded on the entry, although entries
  may share a mixer. The effect of `mixer.setTime` on the actions is not modelled: it rewinds
  every action of the mixer and advances the running ones to the new time, and a once-only
  clamped action that reaches its clip's end is paused and fires `finished`. `currentProgress` and `currentWeight` are kept but never written, as in
  the code. The `isPlaying && |progress - triggerPoint| < 0.1` term of the activation test can
  never start an entry (it needs the entry to be playing already), so it changes nothing.

=== FILE: animation_utils.dfy ===
/** The animation-table helpers of `src/utils/animationUtils.js`: stopping and resetting every
    action of a character, listing the active ones, guessing the current clip by name, and
    transitioning from the current clip to a target clip. */
module AnimationUtils {
  import opened Optional
  import opened Clips
  import opened Sequences

  /** The default of `stopAllAnimations`'s `fullReset` parameter in the code (its doc comment
      says `false`). */
  const DefaultFullReset := true

  /** `stopAllAnimations(actions, excludeList, fullReset)`: every non-null action whose name is
      not excluded is stopped, rewound and given weight 0 (`fullReset`), or just faded out over
      0.2 s; excluded and null properties are left alone. */
  function StopAllAnimations(t: Table, exclude: set<string>, fullReset: bool): (r: Table)
    ensures |r| == |t|
    ensures forall i :: 0 <= i < |t| ==> r[i].name == t[i].name && r[i].action.Some? == t[i].action.Some?
    ensures forall i :: 0 <= i < |t| && (t[i].action.None? || t[i].name in exclude) ==> r[i] == t[i]
    ensures fullReset ==> forall i :: 0 <= i < |t| && t[i].action.Some? && t[i].name !in exclude ==>
      Silenced(r[i].action.value) && r[i].action.value.enabled && SameClip(r[i].action.value, t[i].action.value)
    ensures !fullReset ==> forall i :: 0 <= i < |t| && t[i].action.Some? && t[i].name !in exclude ==>
      r[i].action.value.fade == FadingOut(0.2) && r[i].action.value.(fade := Steady) == t[i].action.value.(fade := Steady)
  {
    seq(|t|, i requires 0 <= i < |t| =>
      if t[i].action.Some? && t[i].name !in exclude then
        var a := t[i].action.value;
        Entry(t[i].name, Some(if fullReset then Reset(Stop(a)).(weight := 0.0) else FadeOut(a, 0.2)))
      else t[i])
  }

  /** The stop-and-zero applied to each action by `resetAnimationState`. */
  function Disable(a: Action): Action {
    Reset(Stop(a)).(weight := 0.0, enabled := false)
  }

  /** `resetAnimationState(actions)`: nothing happens without a table; otherwise every non-null
      action ends halted, rewound, with weight 0 and disabled. */
  function ResetAnimationState(actions: Option<Table>): (r: Option<Table>)
    ensures r.Some? <==> actions.Some?
    ensures actions.Some? ==> |r.value| == |actions.value|
    ensures actions.Some? ==> forall i :: 0 <= i < |actions.value| ==>
      r.value[i].name == actions.value[i].name && r.value[i].action.Some? == actions.value[i].action.Some?
    ensures actions.Some? ==> forall i :: 0 <= i < |actions.value| && actions.value[i].action.Some? ==>
      Silenced(r.value[i].action.value) && !r.value[i].action.value.enabled
      && SameClip(r.value[i].action.value, actions.value[i].action.value)
  {
    match actions
    case None => None
    case Some(t) =>
      Some(seq(|t|, i requires 0 <= i < |t| =>
        if t[i].action.Some? then Entry(t[i].name, Some(Disable(t[i].action.value))) else t[i]))
  }

  /** Resetting twice is resetting once. */
  lemma ResetAnimationStateIdempotent(actions: Option<Table>)
    ensures ResetAnimationState(ResetAnimationState(actions)) == ResetAnimationState(actions)
  {
    if actions.Some? {
      var once := ResetAnimationState(actions).value;
      var twice := ResetAnimationState(Some(once)).value;
      assert |twice| == |once|;
      forall i | 0 <= i < |once| ensures twice[i] == once[i] {
        if once[i].action.Some? {
          assert Disable(once[i].action.value) == once[i].action.value;
        }
      }
      assert twice == once;
    }
  }

  // ---- listing the active actions ----

  /** One element of the list `getActiveAnimations` returns: the name and the action; the
      `weight`, `timeScale`, `time`, `progress` and `isEffectivelyPlaying` fields are read off it. */
  datatype Snapshot = Snapshot(name: string, action: Action)

  /** `time / clip.duration`. */
  function Progress(a: Action): real {
    a.time / a.duration
  }

  /** Running, not paused, with a non-zero time scale and a positive weight. */
  predicate EffectivelyPlaying(a: Action) {
    a.isRunning && !a.paused && a.timeScale != 0.0 && a.weight > 0.0
  }

  /** The filter of `getActiveAnimations`: positive weight and enabled; in strict mode also
      running, not paused and with a non-zero time scale. */
  predicate Qualifies(a: Action, strict: bool) {
    var isActive := a.weight > 0.0 && a.enabled;
    if strict then isActive && a.isRunning && !a.paused && a.timeScale != 0.0 else isActive
  }

  function WeightOf(s: Snapshot): real { s.action.weight }
  function ProgressOf(s: Snapshot): real { Progress(s.action) }
  function EffectiveWeightOf(s: Snapshot): real { s.action.effectiveWeight }

  /** `Object.entries(actions)` restricted to non-null values, in property order. */
  function Present(t: Table): (r: seq<Snapshot>)
    ensures |r| <= |t|
    ensures forall x :: x in r <==> exists i :: 0 <= i < |t| && t[i].action.Some? && x == Snapshot(t[i].name, t[i].action.value)
  {
    if |t| == 0 then []
    else
      var rest := Present(t[1..]);
      assert forall i :: 1 <= i < |t| ==> t[1..][i - 1] == t[i];
      if t[0].action.Some? then [Snapshot(t[0].name, t[0].action.value)] + rest else rest
  }

  /** `getActiveAnimations(actions, strictMode)`: the qualifying actions, heaviest first. The
      result is a permutation of the qualifying entries, so it invents no names. */
  function GetActiveAnimations(actions: Option<Table>, strict: bool): (r: seq<Snapshot>)
    ensures actions.None? ==> r == []
    ensures SortedDesc(r, WeightOf)
    ensures forall x :: x in r <==>
      actions.Some? && x in Present(actions.value)
      && x.action.weight > 0.0 && x.action.enabled
      && (strict ==> x.action.isRunning && !x.action.paused && x.action.timeScale != 0.0)
    ensures forall x :: multiset(r)[x] == (if actions.Some? && Qualifies(x.action, strict)
      then multiset(Present(actions.value))[x] else 0)
  {
    match actions
    case None => []
    case Some(t) => SortDesc(Filter(Present(t), (s: Snapshot) => Qualifies(s.action, strict)), WeightOf)
  }

  /** `getCurrentAnimations(actions)`: the strict list, so only effectively playing actions. */
  function GetCurrentAnimations(actions: Option<Table>): (r: seq<Snapshot>)
    ensures SortedDesc(r, WeightOf)
    ensures forall x :: x in r ==> EffectivelyPlaying(x.action) && x.action.enabled
    ensures forall x :: x in r <==> x in GetActiveAnimations(actions, false) && EffectivelyPlaying(x.action)
  {
    GetActiveAnimations(actions, true)
  }

  /** Every strict-mode result is also a non-strict one, as often as it occurs there. */
  lemma StrictIsSubsetOfLoose(actions: Option<Table>)
    ensures multiset(GetActiveAnimations(actions, true)) <= multiset(GetActiveAnimations(actions, false))
  {
  }

  // ---- guessing the current clip ----

  /** The entries `getCurrentAnimationName` calls running. */
  function Running(t: Table): seq<Snapshot> {
    Filter(Present(t), (s: Snapshot) => EffectivelyPlaying(s.action))
  }

  /** The entries with a positive weight. */
  function Weighted(t: Table): seq<Snapshot> {
    Filter(Present(t), (s: Snapshot) => s.action.weight > 0.0)
  }

  /** WALKING takes priority when it is running with a positive weight and is more than 5% in;
      `paused` and `timeScale` are not consulted. */
  predicate WalkingPriority(t: Table)
    requires WellFormed(t)
  {
    var w := Lookup(t, "WALKING");
    w.Some? && w.value.isRunning && w.value.weight > 0.0 && Progress(w.value) > 0.05
  }

  /** Some property named `name` holds an action of positive weight. */
  ghost predicate HasWeightedEntry(t: Table, name: string) {
    exists i :: 0 <= i < |t| && t[i].name == name && t[i].action.Some? && t[i].action.value.weight > 0.0
  }

  /** No action of the table has a positive weight. */
  ghost predicate Weightless(t: Table) {
    forall i :: 0 <= i < |t| && t[i].action.Some? ==> t[i].action.value.weight <= 0.0
  }

  lemma WalkingIsWeighted(t: Table)
    requires WellFormed(t) && WalkingPriority(t)
    ensures HasWeightedEntry(t, "WALKING")
  {
    var i :| 0 <= i < |t| && t[i].name == "WALKING" && t[i].action.Some?;
  }

  /** The sorted head of a list of positive-weight snapshots of `t` names a weighted entry. */
  lemma SortedHeadIsWeighted(t: Table, s: seq<Snapshot>, key: Snapshot -> real)
    requires |s| > 0
    requires forall x :: x in s ==> x in Present(t) && x.action.weight > 0.0
    ensures HasWeightedEntry(t, SortDesc(s, key)[0].name)
  {
    SortHeadIsMax(s, key);
  }

  lemma NothingWeightedIsWeightless(t: Table)
    requires |Weighted(t)| == 0
    ensures Weightless(t)
  {
    forall i | 0 <= i < |t| && t[i].action.Some?
      ensures t[i].action.value.weight <= 0.0
    {
      assert Snapshot(t[i].name, t[i].action.value) in Present(t);
    }
  }

  /** `getCurrentAnimationName(actions)`: WALKING if it has priority, else the running action
      with the most progress (when above 10%) or the largest effective weight, else the heaviest
      action. The code reads every value of the table before anything else, so a `null` value
      throws; the model requires none. The result is `null` exactly when there is no table or no
      action has a positive weight, and any other result names an action of positive weight. */
  function GetCurrentAnimationName(actions: Option<Table>): (r: Option<string>)
    requires actions.Some? ==> WellFormed(actions.value) && NoNulls(actions.value)
    ensures r.None? <==> (actions.None? || Weightless(actions.value))
    ensures r.Some? ==> HasWeightedEntry(actions.value, r.value)
  {
    match actions
    case None => None
    case Some(t) =>
      var running := Running(t);
      if WalkingPriority(t) then
        WalkingIsWeighted(t);
        Some("WALKING")
      else if |running| > 0 then
        var byProgress := SortDesc(running, ProgressOf);
        if ProgressOf(byProgress[0]) > 0.1 then
          SortedHeadIsWeighted(t, running, ProgressOf);
          Some(byProgress[0].name)
        else
          var byWeight := SortDesc(running, EffectiveWeightOf);
          SortedHeadIsWeighted(t, running, EffectiveWeightOf);
          Some(byWeight[0].name)
      else
        var withWeight := SortDesc(Weighted(t), WeightOf);
        if |withWeight| > 0 then
          SortedHeadIsWeighted(t, Weighted(t), WeightOf);
          Some(withWeight[0].name)
        else
          NothingWeightedIsWeightless(t);
          None
  }

  /** WALKING wins whatever the other actions are doing. */
  lemma WalkingWins(t: Table)
    requires WellFormed(t) && NoNulls(t)
    requires WalkingPriority(t)
    ensures GetCurrentAnimationName(Some(t)) == Some("WALKING")
  {
  }

  /** Otherwise, among the running actions, the first one with the largest progress is chosen
      when that progress exceeds 10%, and the first one with the largest effective weight when
      it does not. */
  lemma {:induction false} RunningChoice(t: Table)
    requires WellFormed(t) && NoNulls(t)
    requires !WalkingPriority(t) && |Running(t)| > 0
    ensures var running := Running(t);
            var p := running[FirstMax(running, ProgressOf)];
            var w := running[FirstMax(running, EffectiveWeightOf)];
            GetCurrentAnimationName(Some(t)) == Some(if Progress(p.action) > 0.1 then p.name else w.name)
  {
    SortHeadIsFirstMax(Running(t), ProgressOf);
    SortHeadIsFirstMax(Running(t), EffectiveWeightOf);
  }

  /** With nothing running, the first action of the largest (positive) weight is chosen. */
  lemma {:induction false} IdleChoice(t: Table)
    requires WellFormed(t) && NoNulls(t)
    requires !WalkingPriority(t) && |Running(t)| == 0 && |Weighted(t)| > 0
    ensures GetCurrentAnimationName(Some(t)) == Some(Weighted(t)[FirstMax(Weighted(t), WeightOf)].name)
  {
    SortHeadIsFirstMax(Weighted(t), WeightOf);
  }

  // ---- transitions ----

  /** `options` of `playAnimationTransition`. */
  datatype TransitionOptions = TransitionOptions(crossFadeTime: real, fadeInDuration: real)

  /** A `finished` listener registered on the mixer: when any action of the mixer finishes, it
      cross-fades `source` into `target`. */
  datatype Listener = Listener(source: string, target: string, crossFadeTime: real)

  /** The mixer the actions share: the table and its `finished` listeners, oldest first. */
  datatype Mixer = Mixer(actions: Table, listeners: seq<Listener>)

  /** `name` holds the heaviest action that `getActiveAnimations` reports. */
  ghost predicate Heaviest(t: Table, name: string)
    requires WellFormed(t)
  {
    var a := Lookup(t, name);
    a.Some? && Qualifies(a.value, false) &&
    forall i :: 0 <= i < |t| && t[i].action.Some? && Qualifies(t[i].action.value, false) ==>
      t[i].action.value.weight <= a.value.weight
  }

  /** No action qualifies for `getActiveAnimations`. */
  ghost predicate NoneActive(t: Table) {
    forall i :: 0 <= i < |t| && t[i].action.Some? ==> !Qualifies(t[i].action.value, false)
  }

  lemma ActiveHeadIsHeaviest(t: Table)
    requires WellFormed(t)
    ensures var playing := GetActiveAnimations(Some(t), false);
      (|playing| == 0 <==> NoneActive(t)) && (|playing| > 0 ==> Heaviest(t, playing[0].name))
  {
    var playing := GetActiveAnimations(Some(t), false);
    forall i | 0 <= i < |t| && t[i].action.Some? && Qualifies(t[i].action.value, false)
      ensures Snapshot(t[i].name, t[i].action.value) in playing
    {
      assert Snapshot(t[i].name, t[i].action.value) in Present(t);
    }
    if |playing| > 0 {
      var head := playing[0];
      SortHeadIsMax(Filter(Present(t), (s: Snapshot) => Qualifies(s.action, false)), WeightOf);
      var j :| 0 <= j < |t| && t[j].action.Some? && head == Snapshot(t[j].name, t[j].action.value);
      assert Lookup(t, head.name) == Some(head.action);
    }
  }

  /** A source exists: an explicit one from the table, or some active action to detect. */
  ghost predicate HasSource(t: Table, from: Option<string>)
    requires WellFormed(t)
  {
    (from.Some? && Lookup(t, from.value).Some?) || !NoneActive(t)
  }

  /** The source of a transition: the explicitly given action when it names one, otherwise the
      heaviest action `getActiveAnimations` reports, otherwise none. */
  function SourceOf(t: Table, from: Option<string>): (r: Option<string>)
    requires WellFormed(t)
    ensures r.Some? <==> HasSource(t, from)
    ensures r.Some? ==> Lookup(t, r.value).Some?
    ensures from.Some? && Lookup(t, from.value).Some? ==> r == from
    ensures (from.None? || Lookup(t, from.value).None?) ==> (r.None? <==> NoneActive(t))
    ensures (from.None? || Lookup(t, from.value).None?) && r.Some? ==> Heaviest(t, r.value)
  {
    if from.Some? && Lookup(t, from.value).Some? then from
    else
      var playing := GetActiveAnimations(Some(t), false);
      ActiveHeadIsHeaviest(t);
      if |playing| > 0 then Some(playing[0].name) else None
  }

  /** The no-source branch: stop everything but the target, then reset, fade in and play it. */
  function PlayDirectly(t: Table, to: string, fadeIn: real): (r: Table)
    ensures |r| == |t|
    ensures forall i :: 0 <= i < |t| ==> r[i].name == t[i].name && r[i].action.Some? == t[i].action.Some?
    ensures forall i :: 0 <= i < |t| && t[i].action.Some? && t[i].name != to ==> Silenced(r[i].action.value)
    ensures forall i :: 0 <= i < |t| && t[i].action.Some? && t[i].name == to ==>
      var a := r[i].action.value;
      a.isRunning && !a.paused && a.time == 0.0 && a.fade == FadingIn(fadeIn) && a.weight == t[i].action.value.weight
  {
    var stopped := StopAllAnimations(t, {to}, DefaultFullReset);
    Apply(Apply(Apply(stopped, to, CallReset), to, CallFadeIn(fadeIn)), to, CallPlay)
  }

  /** The source branch: stop everything but source and target, then replay the source once,
      clamped, fading in; the target is left for the `finished` listener. */
  function ReplaySource(t: Table, src: string, to: string, fadeIn: real): (r: Table)
    ensures |r| == |t|
    ensures forall i :: 0 <= i < |t| ==> r[i].name == t[i].name && r[i].action.Some? == t[i].action.Some?
    ensures forall i :: 0 <= i < |t| && t[i].action.Some? && t[i].name != to && t[i].name != src ==>
      Silenced(r[i].action.value)
    ensures forall i :: 0 <= i < |t| && t[i].action.Some? && t[i].name == src ==>
      var a := r[i].action.value;
      a.isRunning && !a.paused && a.time == 0.0 && a.loop == LoopOnce && a.clampWhenFinished && a.fade == FadingIn(fadeIn)
    ensures src != to ==> forall i :: 0 <= i < |t| && t[i].name == to ==> r[i] == t[i]
  {
    var stopped := StopAllAnimations(t, {src, to}, DefaultFullReset);
    var replayed := Apply(Apply(stopped, src, CallReset), src, CallOnceClamped);
    Apply(Apply(replayed, src, CallFadeIn(fadeIn)), src, CallPlay)
  }

  /** `playAnimationTransition(actions, toAction, options, fromAction)`, with the actions named.
      An undefined target changes nothing. A defined target need not be an action of the table:
      the transition runs all the same, and the calls on such a target touch nothing in it. */
  function PlayAnimationTransition(m: Mixer, target: Option<string>, opts: TransitionOptions, from: Option<string>): (r: Mixer)
    requires WellFormed(m.actions)
    ensures target.None? ==> r == m
    ensures SameShape(m.actions, r.actions)
  {
    if target.None? then m
    else
      var to := target.value;
      match SourceOf(m.actions, from)
      case None => Mixer(PlayDirectly(m.actions, to, opts.fadeInDuration), m.listeners)
      case Some(src) =>
        Mixer(ReplaySource(m.actions, src, to, opts.fadeInDuration), m.listeners + [Listener(src, to, opts.crossFadeTime)])
  }

  /** One `onFinished` listener: reset the target, cross-fade the source into it, fade it in and
      play it. */
  function RunListener(t: Table, l: Listener): (r: Table)
    ensures |r| == |t|
    ensures forall i :: 0 <= i < |t| ==> r[i].name == t[i].name && r[i].action.Some? == t[i].action.Some?
    ensures forall i :: 0 <= i < |t| && t[i].action.Some? && t[i].name == l.target ==>
      var a := r[i].action.value;
      a.isRunning && !a.paused && a.time == 0.0 && a.fade == FadingIn(l.crossFadeTime)
    ensures l.source != l.target ==> forall i :: 0 <= i < |t| && t[i].action.Some? && t[i].name == l.source ==>
      r[i].action.value == FadeOut(t[i].action.value, l.crossFadeTime)
  {
    var reset := Apply(t, l.target, CallReset);
    var crossFaded := Apply(Apply(reset, l.source, CallFadeOut(l.crossFadeTime)), l.target, CallFadeIn(l.crossFadeTime));
    Apply(Apply(crossFaded, l.target, CallFadeIn(l.crossFadeTime)), l.target, CallPlay)
  }

  function RunListeners(t: Table, ls: seq<Listener>): (r: Table)
    ensures SameShape(t, r)
    decreases |ls|
  {
    if |ls| == 0 then t else RunListeners(RunListener(t, ls[0]), ls[1..])
  }

  /** The mixer's `finished` event: every registered listener runs once, in registration order,
      and removes itself. */
  function Finished(m: Mixer): (r: Mixer)
    ensures r.listeners == []
    ensures SameShape(m.actions, r.actions)
  {
    Mixer(RunListeners(m.actions, m.listeners), [])
  }

  /** The names of the actions holding a non-zero weight. */
  function CarryingWeight(t: Table): set<string> {
    set i | 0 <= i < |t| && t[i].action.Some? && t[i].action.value.weight != 0.0 :: t[i].name
  }

  /** Replaying a source silences everything else, so only source and target can carry weight. */
  lemma ReplayCarries(t: Table, src: string, to: string, fadeIn: real)
    ensures CarryingWeight(ReplaySource(t, src, to, fadeIn)) <= {src, to}
  {
    var r := ReplaySource(t, src, to, fadeIn);
    forall x | x in CarryingWeight(r) ensures x == src || x == to {
      var i :| 0 <= i < |r| && r[i].action.Some? && r[i].action.value.weight != 0.0 && r[i].name == x;
    }
  }

  /** Playing the target directly silences everything else, so only the target can carry weight. */
  lemma DirectCarries(t: Table, to: string, fadeIn: real)
    ensures CarryingWeight(PlayDirectly(t, to, fadeIn)) <= {to}
  {
    var r := PlayDirectly(t, to, fadeIn);
    forall x | x in CarryingWeight(r) ensures x == to {
      var i :| 0 <= i < |r| && r[i].action.Some? && r[i].action.value.weight != 0.0 && r[i].name == x;
    }
  }

  /** An undefined target changes nothing. */
  lemma UndefinedTargetIsNoOp(m: Mixer, opts: TransitionOptions, from: Option<string>)
    requires WellFormed(m.actions)
    ensures PlayAnimationTransition(m, None, opts, from) == m
  {
  }

  /** Without a source, every action but the target is silenced, the target is rewound, fading in
      and playing, and no listener is added; so only the target can still carry weight. */
  lemma TransitionWithoutSource(m: Mixer, to: string, opts: TransitionOptions, from: Option<string>)
    requires WellFormed(m.actions)
    requires !HasSource(m.actions, from)
    ensures var r := PlayAnimationTransition(m, Some(to), opts, from);
      && r.listeners == m.listeners
      && (forall i :: 0 <= i < |m.actions| && m.actions[i].action.Some? && m.actions[i].name != to ==>
            Silenced(r.actions[i].action.value))
      && (forall i :: 0 <= i < |m.actions| && m.actions[i].name == to && m.actions[i].action.Some? ==>
            var a := r.actions[i].action.value;
            a.isRunning && a.time == 0.0 && !a.paused && a.fade == FadingIn(opts.fadeInDuration))
      && CarryingWeight(r.actions) <= {to}
  {
    var r := PlayAnimationTransition(m, Some(to), opts, from);
    assert r.actions == PlayDirectly(m.actions, to, opts.fadeInDuration);
    DirectCarries(m.actions, to, opts.fadeInDuration);
  }

  /** With a source found, the transition is the replay of the source plus one listener. */
  lemma TransitionIsReplay(m: Mixer, to: string, opts: TransitionOptions, from: Option<string>)
    requires WellFormed(m.actions)
    requires HasSource(m.actions, from)
    ensures var src := SourceOf(m.actions, from).value;
      PlayAnimationTransition(m, Some(to), opts, from)
        == Mixer(ReplaySource(m.actions, src, to, opts.fadeInDuration), m.listeners + [Listener(src, to, opts.crossFadeTime)])
  {
  }

  /** With a source, every action but source and target is silenced; the source is rewound, set
      to play once and clamp, fading in and playing; the target is not touched yet; exactly one
      listener for the pair is added. */
  lemma TransitionWithSource(m: Mixer, to: string, opts: TransitionOptions, from: Option<string>)
    requires WellFormed(m.actions)
    requires HasSource(m.actions, from)
    ensures var src := SourceOf(m.actions, from).value;
      var r := PlayAnimationTransition(m, Some(to), opts, from);
      && r.listeners == m.listeners + [Listener(src, to, opts.crossFadeTime)]
      && (forall i :: 0 <= i < |m.actions| && m.actions[i].action.Some? && m.actions[i].name != to && m.actions[i].name != src ==>
            Silenced(r.actions[i].action.value))
      && (forall i :: 0 <= i < |m.actions| && m.actions[i].name == src && m.actions[i].action.Some? ==>
            var a := r.actions[i].action.value;
            a.isRunning && a.time == 0.0 && a.loop == LoopOnce && a.clampWhenFinished
            && a.fade == FadingIn(opts.fadeInDuration))
      && (src != to ==> forall i :: 0 <= i < |m.actions| && m.actions[i].name == to ==> r.actions[i] == m.actions[i])
  {
    TransitionIsReplay(m, to, opts, from);
  }

  /** With a source, at most the source and the target still carry weight. */
  lemma TransitionWithSourceCarries(m: Mixer, to: string, opts: TransitionOptions, from: Option<string>)
    requires WellFormed(m.actions)
    requires HasSource(m.actions, from)
    ensures CarryingWeight(PlayAnimationTransition(m, Some(to), opts, from).actions) <= {SourceOf(m.actions, from).value, to}
  {
    var src := SourceOf(m.actions, from).value;
    TransitionIsReplay(m, to, opts, from);
    ReplayCarries(m.actions, src, to, opts.fadeInDuration);
  }

  /** Registered listeners run in order, so one added last runs after all the others. */
  lemma {:induction false} RunListenersAppend(t: Table, ls: seq<Listener>, l: Listener)
    ensures RunListeners(t, ls + [l]) == RunListener(RunListeners(t, ls), l)
    decreases |ls|
  {
    if |ls| == 0 {
      assert ls + [l] == [l];
      assert [l][1..] == [];
      assert RunListeners(t, [l]) == RunListeners(RunListener(t, l), []);
    } else {
      assert (ls + [l])[0] == ls[0];
      assert (ls + [l])[1..] == ls[1..] + [l];
      RunListenersAppend(RunListener(t, ls[0]), ls[1..], l);
    }
  }

  /** Once the `finished` event fires after a transition with a distinct source, the target is
      rewound, fading in over the cross-fade time and playing, the source is fading out, and no
      listener is left. Listeners of earlier transitions still registered run first, so the new
      one decides how target and source end. */
  lemma FinishedStartsTarget(m: Mixer, to: string, opts: TransitionOptions, from: Option<string>)
    requires WellFormed(m.actions)
    requires HasSource(m.actions, from)
    ensures var src := SourceOf(m.actions, from).value;
      var r := Finished(PlayAnimationTransition(m, Some(to), opts, from));
      src != to ==> (
        && r.listeners == []
        && (forall i :: 0 <= i < |m.actions| && m.actions[i].name == to && m.actions[i].action.Some? ==>
              var a := r.actions[i].action.value;
              a.isRunning && a.time == 0.0 && !a.paused && a.fade == FadingIn(opts.crossFadeTime))
        && (forall i :: 0 <= i < |m.actions| && m.actions[i].name == src && m.actions[i].action.Some? ==>
              r.actions[i].action.value.fade == FadingOut(opts.crossFadeTime)))
  {
    var src := SourceOf(m.actions, from).value;
    var l := Listener(src, to, opts.crossFadeTime);
    TransitionIsReplay(m, to, opts, from);
    if src != to {
      assert Finished(PlayAnimationTransition(m, Some(to), opts, from))
        == Finished(Mixer(ReplaySource(m.actions, src, to, opts.fadeInDuration), m.listeners + [l]));
      FinishedAfterReplay(m.actions, m.listeners, src, to, opts.fadeInDuration, opts.crossFadeTime);
    }
  }

  /** Whatever the source, even the target itself, the `finished` event after a transition with
      a source leaves no listener and the target rewound, fading in over the cross-fade time and
      playing: the pair's listener runs last, and its fade-in follows the fade-out. */
  lemma FinishedPlaysTarget(m: Mixer, to: string, opts: TransitionOptions, from: Option<string>)
    requires WellFormed(m.actions)
    requires HasSource(m.actions, from)
    ensures var r := Finished(PlayAnimationTransition(m, Some(to), opts, from));
      && r.listeners == []
      && forall i :: 0 <= i < |m.actions| && m.actions[i].name == to && m.actions[i].action.Some? ==>
           var a := r.actions[i].action.value;
           a.isRunning && a.time == 0.0 && !a.paused && a.fade == FadingIn(opts.crossFadeTime)
  {
    var src := SourceOf(m.actions, from).value;
    var l := Listener(src, to, opts.crossFadeTime);
    TransitionIsReplay(m, to, opts, from);
    assert Finished(PlayAnimationTransition(m, Some(to), opts, from))
      == Finished(Mixer(ReplaySource(m.actions, src, to, opts.fadeInDuration), m.listeners + [l]));
    FinishedAfterReplay(m.actions, m.listeners, src, to, opts.fadeInDuration, opts.crossFadeTime);
  }

  /** The `finished` event after a replay, with any listeners registered before the pair's own:
      the pair's listener runs last and decides how target and source end. */
  lemma FinishedAfterReplay(t: Table, earlier: seq<Listener>, src: string, to: string, fadeIn: real, crossFade: real)
    ensures var r := Finished(Mixer(ReplaySource(t, src, to, fadeIn), earlier + [Listener(src, to, crossFade)]));
      && r.listeners == []
      && (forall i :: 0 <= i < |t| && t[i].name == to && t[i].action.Some? ==>
            var a := r.actions[i].action.value;
            a.isRunning && a.time == 0.0 && !a.paused && a.fade == FadingIn(crossFade))
      && (src != to ==> forall i :: 0 <= i < |t| && t[i].name == src && t[i].action.Some? ==>
            r.actions[i].action.value.fade == FadingOut(crossFade))
  {
    var replayed := ReplaySource(t, src, to, fadeIn);
    RunListenersAppend(replayed, earlier, Listener(src, to, crossFade));
  }

  /** A defined target outside the table: every action of the table but the source ends
      silenced, so without a source nothing in the table carries weight; with one, the source
      replays and the pair's listener is still registered. */
  lemma TransitionToOutsideTarget(m: Mixer, to: string, opts: TransitionOptions, from: Option<string>)
    requires WellFormed(m.actions)
    requires Lookup(m.actions, to).None?
    ensures var r := PlayAnimationTransition(m, Some(to), opts, from);
      && (SourceOf(m.actions, from).None? ==>
            && r.listeners == m.listeners
            && (forall i :: 0 <= i < |m.actions| && m.actions[i].action.Some? ==> Silenced(r.actions[i].action.value))
            && CarryingWeight(r.actions) == {})
      && (SourceOf(m.actions, from).Some? ==>
            var src := SourceOf(m.actions, from).value;
            && src != to
            && r.listeners == m.listeners + [Listener(src, to, opts.crossFadeTime)]
            && (forall i :: 0 <= i < |m.actions| && m.actions[i].action.Some? && m.actions[i].name != src ==>
                  Silenced(r.actions[i].action.value)))
  {
    var r := PlayAnimationTransition(m, Some(to), opts, from);
    if SourceOf(m.actions, from).None? {
      TransitionWithoutSource(m, to, opts, from);
    } else {
      TransitionWithSource(m, to, opts, from);
    }
  }
}

=== FILE: clips.dfy ===
/** Clip actions of the skinned-animation engine, as the animation helpers see them, and the table
    of named actions a character exposes. The engine itself is external; its primitives are
    modelled by the effect they have on the fields the helpers read and write, following the
    engine's `AnimationAction` (`stop`, `reset`, `play`, `fadeIn`, `fadeOut`, `setLoop`,
    `clampWhenFinished`, `crossFadeTo`). */
module Clips {
  import opened Optional

  /** Durations the code divides by. */
  type PosReal = r: real | r > 0.0 witness 1.0

  datatype Loop = LoopRepeat | LoopOnce

  /** A weight fade scheduled on an action; cleared by `reset`/`stop`. */
  datatype Fade = Steady | FadingIn(fadeDuration: real) | FadingOut(fadeDuration: real)

  /** One clip action: its blend `weight`, the mixer's `effectiveWeight`, the playback flags, the
      local `time` and the clip's `duration`. */
  datatype Action = Action(
    weight: real,
    effectiveWeight: real,
    enabled: bool,
    isRunning: bool,
    paused: bool,
    timeScale: real,
    time: real,
    duration: PosReal,
    loop: Loop,
    clampWhenFinished: bool,
    fade: Fade)

  /** One property of the actions object: a clip name and its action, which may be `null`. */
  datatype Entry = Entry(name: string, action: Option<Action>)

  /** The actions object, in its property (insertion) order. */
  type Table = seq<Entry>

  /** Property names of an object are distinct. */
  ghost predicate WellFormed(t: Table) {
    forall i, j :: 0 <= i < j < |t| ==> t[i].name != t[j].name
  }

  /** Every property holds an action (no `null` values). */
  ghost predicate NoNulls(t: Table) {
    forall i :: 0 <= i < |t| ==> t[i].action.Some?
  }

  /** `actions[name]`: the action stored under `name`, `None` when absent or `null`. */
  function Lookup(t: Table, name: string): (r: Option<Action>)
    requires WellFormed(t)
    ensures r.Some? <==> exists i :: 0 <= i < |t| && t[i].name == name && t[i].action.Some?
    ensures forall i :: 0 <= i < |t| && t[i].name == name ==> r == t[i].action
  {
    if |t| == 0 then None
    else if t[0].name == name then t[0].action
    else
      assert forall i :: 1 <= i < |t| ==> t[1..][i - 1] == t[i];
      Lookup(t[1..], name)
  }

  /** `r` has the same properties as `t`, each `null` exactly when it was. */
  ghost predicate SameShape(t: Table, r: Table) {
    |r| == |t| && forall i :: 0 <= i < |t| ==> r[i].name == t[i].name && r[i].action.Some? == t[i].action.Some?
  }

  /** A call the helpers make on one action. */
  datatype Call = CallReset | CallPlay | CallFadeIn(inDuration: real) | CallFadeOut(outDuration: real) | CallOnceClamped

  /** The effect of one call on an action. */
  function Perform(a: Action, c: Call): Action {
    match c
    case CallReset => Reset(a)
    case CallPlay => Play(a)
    case CallFadeIn(d) => FadeIn(a, d)
    case CallFadeOut(d) => FadeOut(a, d)
    case CallOnceClamped => OnceClamped(a)
  }

  /** Makes call `c` on the action stored under `name`, leaving every other property alone. */
  function Apply(t: Table, name: string, c: Call): (r: Table)
    ensures |r| == |t|
    ensures forall i :: 0 <= i < |t| ==> r[i].name == t[i].name
    ensures forall i :: 0 <= i < |t| ==>
      r[i].action == (if t[i].name == name && t[i].action.Some? then Some(Perform(t[i].action.value, c)) else t[i].action)
  {
    seq(|t|, i requires 0 <= i < |t| =>
      if t[i].name == name && t[i].action.Some? then Entry(name, Some(Perform(t[i].action.value, c))) else t[i])
  }

  // ---- engine primitives ----

  /** `action.stop()`: deactivates the action in its mixer; the engine also resets it. */
  function Stop(a: Action): Action {
    Reset(a.(isRunning := false))
  }

  /** `action.reset()`: unpaused, enabled, back at time 0, no fade in progress. */
  function Reset(a: Action): Action {
    a.(paused := false, enabled := true, time := 0.0, fade := Steady)
  }

  /** `action.play()`: schedules the action in its mixer. */
  function Play(a: Action): Action {
    a.(isRunning := true)
  }

  /** `action.fadeIn(d)`. */
  function FadeIn(a: Action, d: real): Action {
    a.(fade := FadingIn(d))
  }

  /** `action.fadeOut(d)`. */
  function FadeOut(a: Action, d: real): Action {
    a.(fade := FadingOut(d))
  }

  /** `action.setLoop(LoopOnce)` followed by `action.clampWhenFinished = true`. */
  function OnceClamped(a: Action): Action {
    a.(loop := LoopOnce, clampWhenFinished := true)
  }

  /** The state `stop(); reset(); weight = 0` leaves an action in: halted, rewound and silent. */
  ghost predicate Silenced(a: Action) {
    !a.isRunning && !a.paused && a.time == 0.0 && a.weight == 0.0 && a.fade == Steady
  }

  /** Fields the helpers never write: clip, speed and the mixer's computed weight. */
  ghost predicate SameClip(a: Action, b: Action) {
    a.duration == b.duration && a.timeScale == b.timeScale && a.effectiveWeight == b.effectiveWeight
  }
}

=== FILE: clump.dfy ===
/** The particle clump of `src/components/Clump.jsx`, reduced to its flags: the imperative handle
    the scene drives (`toggleShield`, `explode`, `permanentExplosion`, `implode`,
    `setShieldProperties`, `setActive`, `isPermanentlyExploded`) and the two per-frame callbacks.
    The physics engine is external: an impulse is recorded by its direction and nominal force,
    and the per-frame forces by whether they were applied. */
module Clump {
  import opened Optional

  /** The component's state; `meshPresent` says whether the instanced mesh is mounted. */
  datatype State = State(active: bool, visible: bool, shimmer: real, permanentlyExploded: bool, meshPresent: bool)

  /** The impulse a handle call applies to every particle. */
  datatype Impulse = NoImpulse | Outward(force: real) | Inward(force: real)

  /** A handle call's new state, return value and impulse. */
  datatype Outcome = Outcome(state: State, returned: bool, impulse: Impulse)

  const ShimmerStep: real := 0.02

  /** The state at mount: inactive, shield hidden, not exploded. */
  function Mount(meshPresent: bool): (s: State)
    ensures !s.active && !s.visible && !s.permanentlyExploded && s.shimmer == 0.0
  {
    State(false, false, 0.0, false, meshPresent)
  }

  /** `toggleShield(show)`: shows or hides the shield, restarting the shimmer when showing, and
      returns `show`. */
  function ToggleShield(s: State, show: bool): (o: Outcome)
    ensures o.returned == show && o.state.visible == show && o.impulse == NoImpulse
    ensures o.state.shimmer == if show then 0.0 else s.shimmer
    ensures o.state.(visible := s.visible, shimmer := s.shimmer) == s
  {
    Outcome(s.(visible := show, shimmer := if show then 0.0 else s.shimmer), show, NoImpulse)
  }

  /** `explode(force, permanent)`: without the mesh nothing happens and `false` is returned;
      otherwise every particle is pushed outward, and a permanent explosion also marks the clump
      exploded and inactive (the shield is left as it is). */
  function Explode(s: State, force: real, permanent: bool): (o: Outcome)
    ensures !s.meshPresent ==> o == Outcome(s, false, NoImpulse)
    ensures s.meshPresent ==> o.returned && o.impulse == Outward(force)
    ensures s.meshPresent && !permanent ==> o.state == s
    ensures s.meshPresent && permanent ==>
      o.state.permanentlyExploded && !o.state.active && o.state.visible == s.visible && o.state.shimmer == s.shimmer
  {
    if !s.meshPresent then Outcome(s, false, NoImpulse)
    else
      var after := if permanent then s.(permanentlyExploded := true, active := false) else s;
      Outcome(after, true, Outward(force))
  }

  /** `permanentExplosion(force)`: without the mesh nothing happens and `false` is returned;
      otherwise the particles are pushed outward, the clump is marked exploded and inactive, and
      the shield is hidden. */
  function PermanentExplosion(s: State, force: real): (o: Outcome)
    ensures !s.meshPresent ==> o == Outcome(s, false, NoImpulse)
    ensures s.meshPresent ==> (
      && o.returned && o.impulse == Outward(force)
      && o.state.permanentlyExploded && !o.state.active && !o.state.visible
      && o.state.shimmer == s.shimmer && o.state.meshPresent)
  {
    if !s.meshPresent then Outcome(s, false, NoImpulse)
    else Outcome(s.(permanentlyExploded := true, active := false, visible := false), true, Outward(force))
  }

  /** `implode(force)`: refused (returning `false`, changing nothing) when the clump is exploded,
      inactive or has no mesh; otherwise the particles are pulled inward. No flag changes. */
  function Implode(s: State, force: real): (o: Outcome)
    ensures o.state == s
    ensures o.returned <==> !s.permanentlyExploded && s.active && s.meshPresent
    ensures o.impulse == if o.returned then Inward(force) else NoImpulse
  {
    if s.permanentlyExploded || !s.active || !s.meshPresent then Outcome(s, false, NoImpulse)
    else Outcome(s, true, Inward(force))
  }

  /** `setActive(isActive)`: refuses to reactivate an exploded clump (returning `false`);
      otherwise sets `active` and returns the requested value. */
  function SetActive(s: State, isActive: bool): (o: Outcome)
    ensures o.impulse == NoImpulse
    ensures s.permanentlyExploded && isActive ==> o == Outcome(s, false, NoImpulse)
    ensures !(s.permanentlyExploded && isActive) ==> o.state == s.(active := isActive) && o.returned == isActive
  {
    if s.permanentlyExploded && isActive then Outcome(s, false, NoImpulse)
    else Outcome(s.(active := isActive), isActive, NoImpulse)
  }

  /** Shield look: radius, colour, opacity. */
  datatype ShieldProps = ShieldProps(radius: real, color: string, opacity: real)

  /** The argument of `setShieldProperties`: each property may be left undefined. */
  datatype ShieldUpdate = ShieldUpdate(radius: Option<real>, color: Option<string>, opacity: Option<real>)

  /** `setShieldProperties(properties)`: every defined property replaces the current one; the
      result is the new set of properties. The clump's flags are not involved. */
  function SetShieldProperties(p: ShieldProps, u: ShieldUpdate): (r: ShieldProps)
    ensures r.radius == u.radius.GetOr(p.radius)
    ensures r.color == u.color.GetOr(p.color)
    ensures r.opacity == u.opacity.GetOr(p.opacity)
  {
    var p1 := if u.radius.Some? then p.(radius := u.radius.value) else p;
    var p2 := if u.color.Some? then p1.(color := u.color.value) else p1;
    if u.opacity.Some? then p2.(opacity := u.opacity.value) else p2
  }

  /** Setting the same properties again changes nothing more. */
  lemma SetShieldPropertiesIdempotent(p: ShieldProps, u: ShieldUpdate)
    ensures SetShieldProperties(SetShieldProperties(p, u), u) == SetShieldProperties(p, u)
  {
  }

  /** The shimmer frame callback: while the shield is visible and not fully shimmering, the
      shimmer grows by a step, capped at 1. */
  function ShimmerFrame(s: State): (r: State)
    ensures r.(shimmer := s.shimmer) == s
    ensures 0.0 <= s.shimmer <= 1.0 ==> 0.0 <= r.shimmer <= 1.0
    ensures s.visible && s.shimmer < 1.0 ==> r.shimmer > s.shimmer
    ensures !s.visible || s.shimmer >= 1.0 ==> r == s
  {
    if s.visible && s.shimmer < 1.0 then
      var next := s.shimmer + ShimmerStep;
      s.(shimmer := if 1.0 < next then 1.0 else next)
    else s
  }

  /** The physics frame callback's result: the new state and whether attract/repel forces ran. */
  datatype Frame = Frame(state: State, forcesApplied: bool)

  /** The physics frame callback, given the distance of the closest particle (computed by the
      physics engine) and the shield radius: nothing runs while the clump is exploded, inactive
      or without a mesh; otherwise forces are applied and the shield is shown when a particle is
      within twice the radius, hidden when none is. */
  function PhysicsFrame(s: State, minDistance: real, shieldRadius: real): (f: Frame)
    ensures f.forcesApplied <==> s.active && !s.permanentlyExploded && s.meshPresent
    ensures !f.forcesApplied ==> f.state == s
    ensures f.state.(visible := s.visible, shimmer := s.shimmer) == s
    ensures f.forcesApplied && minDistance < shieldRadius * 2.0 ==> f.state.visible
    ensures f.forcesApplied && minDistance > shieldRadius * 2.0 ==> !f.state.visible
    ensures f.state.shimmer == s.shimmer || f.state.shimmer == 0.0
  {
    if s.permanentlyExploded || !s.active || !s.meshPresent then Frame(s, false)
    else
      var shielded :=
        if s.active && !s.permanentlyExploded then
          if minDistance < shieldRadius * 2.0 && !s.visible then s.(visible := true, shimmer := 0.0)
          else if minDistance > shieldRadius * 2.0 && s.visible then s.(visible := false)
          else s
        else s;
      Frame(shielded, true)
  }

  /** Everything that can happen to the clump. */
  datatype Op =
    | DoToggleShield(show: bool)
    | DoExplode(force: real, permanent: bool)
    | DoPermanentExplosion(force: real)
    | DoImplode(force: real)
    | DoSetActive(isActive: bool)
    | DoShimmerFrame
    | DoPhysicsFrame(minDistance: real, shieldRadius: real)

  function Step(s: State, op: Op): State {
    match op
    case DoToggleShield(show) => ToggleShield(s, show).state
    case DoExplode(force, permanent) => Explode(s, force, permanent).state
    case DoPermanentExplosion(force) => PermanentExplosion(s, force).state
    case DoImplode(force) => Implode(s, force).state
    case DoSetActive(isActive) => SetActive(s, isActive).state
    case DoShimmerFrame => ShimmerFrame(s)
    case DoPhysicsFrame(d, radius) => PhysicsFrame(s, d, radius).state
  }

  function Run(s: State, ops: seq<Op>): State
    decreases |ops|
  {
    if |ops| == 0 then s else Run(Step(s, ops[0]), ops[1..])
  }

  /** An exploded clump is inactive, and the shimmer stays within `[0, 1]`. */
  ghost predicate Inv(s: State) {
    (s.permanentlyExploded ==> !s.active) && 0.0 <= s.shimmer <= 1.0
  }

  lemma StepKeepsInv(s: State, op: Op)
    requires Inv(s)
    ensures Inv(Step(s, op))
    ensures s.permanentlyExploded ==> Step(s, op).permanentlyExploded
    ensures s.meshPresent == Step(s, op).meshPresent
  {
  }

  /** Irreversibility: once exploded, the clump stays exploded and inactive whatever happens,
      and the shimmer never leaves `[0, 1]`. */
  lemma {:induction false} ExplodedForever(s: State, ops: seq<Op>)
    requires Inv(s)
    ensures Inv(Run(s, ops))
    ensures s.permanentlyExploded ==> Run(s, ops).permanentlyExploded && !Run(s, ops).active
    decreases |ops|
  {
    if |ops| > 0 {
      StepKeepsInv(s, ops[0]);
      ExplodedForever(Step(s, ops[0]), ops[1..]);
    }
  }

  /** After a permanent explosion, no later `setActive(true)` succeeds. */
  lemma {:induction false} NoReactivation(s: State, force: real, ops: seq<Op>)
    requires Inv(s) && s.meshPresent
    ensures var later := Run(PermanentExplosion(s, force).state, ops);
      var o := SetActive(later, true);
      !o.returned && !o.state.active
  {
    StepKeepsInv(s, DoPermanentExplosion(force));
    ExplodedForever(PermanentExplosion(s, force).state, ops);
  }
}

=== FILE: optional.dfy ===
/** The JavaScript `null`/`undefined` of the JavaScript code, made explicit. */
module Optional {

  /** `None` stands for a missing value (`null` or `undefined`), `Some` for a present one. */
  datatype Option<+T> = None | Some(value: T) {

    /** The value when present, else `fallback`: what `x ?? fallback` or a destructuring
        default gives in the JavaScript code. */
    function GetOr(fallback: T): T {
      if Some? then value else fallback
    }
  }
}

=== FILE: scene.dfy ===
/** The scroll-driven scene director of `src/components/AnimationManager.jsx`: the set-up effect
    that registers one scroll trigger per page section, the cleanup that kills them, the
    per-section callbacks, the one-shot PUSH latch and the delayed explosion it schedules.

    The scroll-trigger library decides when a callback fires; here every firing is an event, and
    any sequence of events may happen. Camera moves are recorded by the destination requested
    last (overlapping tweens may end elsewhere), and the character's clip changes by the clip it
    was asked to end on. */
module Scene {
  import opened Optional
  import Clump

  datatype Vec3 = Vec3(x: real, y: real, z: real)

  const Walking := "WALKING"
  const Jump := "JUMP"
  const Salute := "SALUTE"
  const Push := "PUSH"
  const Idle := "IDLE"
  const Face := "FACE"

  /** Delays (milliseconds) of the explosion timer: after the PUSH clip, or without one. */
  const PushExplosionDelay: nat := 1800
  const FallbackExplosionDelay: nat := 1500
  /** Delay of the earth-rotation start after the opening JUMP to WALKING transition. */
  const EarthStartDelay: nat := 2400
  const ExplosionForce: real := 300.0

  /** Camera-target destinations of the section callbacks. */
  const HomeTarget := Vec3(0.0, 1.5, 0.0)
  const WalkTarget := Vec3(0.0, 1.0, 0.0)
  const RotationTarget := Vec3(0.0, 0.0, -10.0)
  const CarouselTarget := Vec3(0.0, 1.0, 5.0)

  /** Environment of the component: the character's clip names, whether the character, the
      rotator (with its `moveY`) are mounted, and whether the set-up may run (character ready and
      scroll container mounted). */
  datatype Config = Config(clips: set<string>, modelPresent: bool, rotatorPresent: bool, ready: bool)

  /** The component's refs and state. `cameraTarget` is the camera target requested last;
      `explosionTimer` holds the delay of the pending explosion timeout; `explosionsScheduled`
      and `explosions` count timeouts set and explosions triggered; `earthTimers` counts pending
      delayed earth-rotation starts. */
  datatype Scene = Scene(
    hasPushed: bool,
    earthRotating: bool,
    cameraTarget: Vec3,
    rotatorY: Option<real>,
    clip: Option<string>,
    pushPending: bool,
    triggers: seq<nat>,
    mainTimeline: bool,
    explosionTimer: Option<nat>,
    explosionsScheduled: nat,
    explosions: nat,
    earthTimers: nat,
    clump: Option<Clump.State>)

  /** The component as it mounts: the PUSH latch is reset and nothing is registered. */
  function Mount(clump: Option<Clump.State>): (s: Scene)
    ensures !s.hasPushed && s.triggers == [] && s.explosionTimer == None
    ensures s.explosionsScheduled == 0 && s.explosions == 0
  {
    Scene(false, false, HomeTarget, None, None, false, [], false, None, 0, 0, 0, clump)
  }

  /** `cleanupTimeline`: kills every scroll trigger and the main timeline and clears the pending
      explosion timeout. The PUSH latch and everything else are kept. */
  function CleanupTimeline(s: Scene): (r: Scene)
    ensures r.triggers == [] && !r.mainTimeline && r.explosionTimer == None
    ensures r.(triggers := s.triggers, mainTimeline := s.mainTimeline, explosionTimer := s.explosionTimer) == s
  {
    s.(triggers := [], mainTimeline := false, explosionTimer := None)
  }

  lemma CleanupIdempotent(s: Scene)
    ensures CleanupTimeline(CleanupTimeline(s)) == CleanupTimeline(s)
  {
  }

  /** `createSectionTimeline(sectionId, …)`: creates a scrubbed timeline whose scroll trigger is
      stored for cleanup. */
  function CreateSectionTimeline(s: Scene, section: nat): (r: Scene)
    ensures r.triggers == s.triggers + [section]
    ensures r.(triggers := s.triggers) == s
  {
    s.(triggers := s.triggers + [section])
  }

  /** The PUSH latch, its timeout bookkeeping and the registered triggers are left alone. */
  ghost predicate LatchKept(s: Scene, r: Scene) {
    && r.hasPushed == s.hasPushed && r.explosionsScheduled == s.explosionsScheduled
    && r.explosions == s.explosions && r.explosionTimer == s.explosionTimer
    && r.triggers == s.triggers && r.mainTimeline == s.mainTimeline
  }

  /** The clump stays mounted (or not) and its explosion flag is unchanged. */
  ghost predicate ClumpKept(s: Scene, r: Scene) {
    && (r.clump.Some? <==> s.clump.Some?)
    && (s.clump.Some? ==> r.clump.value.permanentlyExploded == s.clump.value.permanentlyExploded)
  }

  /** `rotatorX(x)`: asks the rotator to move to `x` when it offers `moveY`. */
  function MoveRotator(cfg: Config, s: Scene, y: real): (r: Scene)
    ensures r.rotatorY == if cfg.rotatorPresent then Some(y) else s.rotatorY
    ensures r == s.(rotatorY := r.rotatorY)
  {
    if cfg.rotatorPresent then s.(rotatorY := Some(y)) else s
  }

  /** The handle's `setActive(false)` on the clump, when mounted. */
  function DeactivateClump(s: Scene): (r: Scene)
    ensures r == s.(clump := r.clump) && ClumpKept(s, r)
    ensures r.clump.Some? ==> !r.clump.value.active
  {
    match s.clump
    case None => s
    case Some(c) => s.(clump := Some(Clump.SetActive(c, false).state))
  }

  /** `setActive(true)` followed by `toggleShield(true)` on the clump, when mounted: the shield
      shows even when the clump refuses to reactivate. */
  function ActivateClump(s: Scene): (r: Scene)
    ensures r == s.(clump := r.clump) && ClumpKept(s, r)
    ensures s.clump.Some? ==> (
      && r.clump.value.visible && r.clump.value.shimmer == 0.0
      && r.clump.value.active == (s.clump.value.active || !s.clump.value.permanentlyExploded))
  {
    match s.clump
    case None => s
    case Some(c) => s.(clump := Some(Clump.ToggleShield(Clump.SetActive(c, true).state, true).state))
  }

  /** The opening animation: JUMP blending into WALKING, with the earth rotation started later. */
  function Opening(cfg: Config, s: Scene): (r: Scene)
    ensures Jump in cfg.clips && Walking in cfg.clips ==> r.clip == Some(Walking) && r.earthTimers == s.earthTimers + 1
    ensures r == s.(clip := r.clip, earthTimers := r.earthTimers)
  {
    if Jump in cfg.clips && Walking in cfg.clips then s.(clip := Some(Walking), earthTimers := s.earthTimers + 1)
    else s
  }

  /** Sections 0 to 3 in registration order: section 1 only with a SALUTE clip. */
  function UpperSections(clips: set<string>): seq<nat> {
    if Salute in clips then [0, 1, 2, 3] else [0, 2, 3]
  }

  /** Registers sections 0 to 3. */
  function RegisterUpper(cfg: Config, s: Scene): (r: Scene)
    ensures r.triggers == s.triggers + UpperSections(cfg.clips)
    ensures r == s.(triggers := r.triggers)
  {
    var s0 := CreateSectionTimeline(s, 0);
    var s1 := if Salute in cfg.clips then CreateSectionTimeline(s0, 1) else s0;
    CreateSectionTimeline(CreateSectionTimeline(s1, 2), 3)
  }

  /** Registers sections 4 to 7. */
  function RegisterLower(s: Scene): (r: Scene)
    ensures r.triggers == s.triggers + [4, 5, 6, 7]
    ensures r == s.(triggers := r.triggers)
  {
    CreateSectionTimeline(CreateSectionTimeline(CreateSectionTimeline(CreateSectionTimeline(s, 4), 5), 6), 7)
  }

  /** A section the set-up registers: every section 0 to 7, section 1 only with a SALUTE clip. */
  predicate Registered(cfg: Config, section: nat) {
    section <= 7 && (section == 1 ==> Salute in cfg.clips)
  }

  /** No section is registered twice. */
  ghost predicate Distinct(xs: seq<nat>) {
    forall i, j :: 0 <= i < j < |xs| ==> xs[i] != xs[j]
  }

  /** The full registration order, and the facts `Setup` states about it. */
  lemma SectionListFacts(cfg: Config)
    ensures var xs := UpperSections(cfg.clips) + [4, 5, 6, 7];
      (forall k: nat :: k in xs <==> Registered(cfg, k)) && Distinct(xs)
  {
  }

  /** The first steps of the set-up: cleanup, a fresh main timeline, the camera re-centred. */
  function Prepare(s: Scene): (r: Scene)
    ensures r.triggers == [] && r.mainTimeline && r.explosionTimer == None && r.cameraTarget == HomeTarget
    ensures r == s.(triggers := [], mainTimeline := true, explosionTimer := None, cameraTarget := HomeTarget)
  {
    CleanupTimeline(s).(mainTimeline := true, cameraTarget := HomeTarget)
  }

  /** The set-up effect: runs only when the character is ready and the scroll container mounted;
      it first cleans up, then creates the paused main timeline, re-centres the camera target,
      starts the opening animation, registers the sections in order and makes the clump start
      inactive. The character is read without a guard right after the main timeline is made, so
      with the character gone the effect stops there, with nothing registered. */
  function Setup(cfg: Config, s: Scene): (r: Scene)
    ensures !cfg.ready ==> r == s
    ensures cfg.ready && !cfg.modelPresent ==>
      r.triggers == [] && r.mainTimeline && r == s.(triggers := [], mainTimeline := true, explosionTimer := None)
    ensures cfg.ready && cfg.modelPresent ==> (
      && r.mainTimeline && r.cameraTarget == HomeTarget && r.explosionTimer == None
      && r.hasPushed == s.hasPushed && r.earthRotating == s.earthRotating
      && r.explosionsScheduled == s.explosionsScheduled && r.explosions == s.explosions
      && (forall k: nat :: k in r.triggers <==> Registered(cfg, k))
      && Distinct(r.triggers)
      && ClumpKept(s, r)
      && (r.clump.Some? ==> !r.clump.value.active))
  {
    if !cfg.ready then s
    else if !cfg.modelPresent then CleanupTimeline(s).(mainTimeline := true)
    else
      var c := Prepare(s);
      var o := Opening(cfg, c);
      var upper := RegisterUpper(cfg, o);
      var d := DeactivateClump(upper);
      var r := RegisterLower(d);
      assert o.triggers == [] && o.clump == s.clump;
      assert d.triggers == UpperSections(cfg.clips);
      SectionListFacts(cfg);
      r
  }

  /** A second set-up registers exactly the same triggers: the cleanup before it kills the old
      ones, so no section ends up with two triggers. */
  lemma SetupTwice(cfg: Config, s: Scene)
    requires cfg.ready
    ensures Setup(cfg, Setup(cfg, s)).triggers == Setup(cfg, s).triggers
  {
    var once := Setup(cfg, s);
    var twice := Setup(cfg, once);
    if cfg.modelPresent {
      assert once.triggers == UpperSections(cfg.clips) + [4, 5, 6, 7];
      assert twice.triggers == UpperSections(cfg.clips) + [4, 5, 6, 7];
    }
  }

  datatype Direction = Enter | Leave | EnterBack | LeaveBack

  /** Sections 0 and 1: walking with the earth turning, or saluting with the earth stopped.
      These callbacks call the character without a guard: with the character gone they stop at
      that call, which comes first except on entering section 1, where the camera has already
      been asked to re-centre. */
  function IntroCallback(cfg: Config, s: Scene, section: nat, dir: Direction): (r: Scene)
    requires section <= 1
    ensures LatchKept(s, r) && r.clump == s.clump
    ensures cfg.modelPresent && ((section == 0 && dir == Enter) || (section == 1 && dir == LeaveBack)) ==>
      r.clip == Some(Walking) && r.earthRotating && r.cameraTarget == WalkTarget
    ensures cfg.modelPresent && section == 1 && dir == Enter ==>
      r.clip == Some(Salute) && !r.earthRotating && r.cameraTarget == HomeTarget
    ensures !cfg.modelPresent ==> r.clip == s.clip && r.earthRotating == s.earthRotating
    ensures !cfg.modelPresent && section == 1 && dir == Enter ==> r == s.(cameraTarget := HomeTarget)
    ensures !(section == 1 && dir == Enter) && (!cfg.modelPresent || !((section == 0 && dir == Enter) || (section == 1 && dir == LeaveBack))) ==>
      r == s
  {
    if section == 1 && dir == Enter then
      var t := s.(cameraTarget := HomeTarget);
      if cfg.modelPresent then t.(clip := Some(Salute), earthRotating := false) else t
    else if !cfg.modelPresent then s
    else if (section == 0 && dir == Enter) || (section == 1 && dir == LeaveBack) then
      s.(clip := Some(Walking), earthRotating := true, cameraTarget := WalkTarget)
    else s
  }

  /** Sections 2 and 3: the camera turns towards the rotation, then the carousel, and back. */
  function CameraCallback(cfg: Config, s: Scene, section: nat, dir: Direction): (r: Scene)
    requires section == 2 || section == 3
    ensures LatchKept(s, r) && r.clump == s.clump && r.clip == s.clip
    ensures dir == Enter ==> r.cameraTarget == (if section == 2 then RotationTarget else CarouselTarget)
    ensures dir == LeaveBack ==> r.cameraTarget == (if section == 2 then HomeTarget else RotationTarget)
    ensures dir == Leave || dir == EnterBack ==> r == s
  {
    if dir == Enter then
      if section == 2 then s.(cameraTarget := RotationTarget)
      else MoveRotator(cfg, s, 1.0).(cameraTarget := CarouselTarget)
    else if dir == LeaveBack then
      if section == 2 then s.(cameraTarget := HomeTarget)
      else MoveRotator(cfg, s, 20.0).(cameraTarget := RotationTarget)
    else s
  }

  /** Section 5's `onEnter`: on the first entry with the character mounted, the latch is set and
      the explosion timeout is scheduled, after the PUSH clip when there is one and with the
      fallback delay otherwise. Later entries only move the camera target. */
  function EnterFinale(cfg: Config, s: Scene): (r: Scene)
    ensures r.cameraTarget == HomeTarget && r.hasPushed == (s.hasPushed || cfg.modelPresent)
    ensures r.triggers == s.triggers && r.mainTimeline == s.mainTimeline && r.clump == s.clump
    ensures s.hasPushed || !cfg.modelPresent ==> r == s.(cameraTarget := HomeTarget)
    ensures !s.hasPushed && cfg.modelPresent ==> (
      && r.explosionsScheduled == s.explosionsScheduled + 1
      && r.explosionTimer == Some(if Push in cfg.clips then PushExplosionDelay else FallbackExplosionDelay)
      && r.clip == (if Push in cfg.clips then Some(Push) else s.clip)
      && r.explosions == s.explosions && r.earthRotating == s.earthRotating)
  {
    var t := s.(cameraTarget := HomeTarget);
    if cfg.modelPresent && !s.hasPushed then
      var latched := t.(hasPushed := true, explosionsScheduled := t.explosionsScheduled + 1);
      if Push in cfg.clips then latched.(clip := Some(Push), pushPending := true, explosionTimer := Some(PushExplosionDelay))
      else latched.(explosionTimer := Some(FallbackExplosionDelay))
    else t
  }

  /** Section 6's `onEnter`: close-up on the character, FACE only before the PUSH has played,
      otherwise IDLE when available. */
  function EnterCloseUp(cfg: Config, s: Scene): (r: Scene)
    ensures r.cameraTarget == HomeTarget
    ensures LatchKept(s, r) && r.clump == s.clump
    ensures r.clip == (
      if cfg.modelPresent && Face in cfg.clips && !s.hasPushed then Some(Face)
      else if cfg.modelPresent && Idle in cfg.clips then Some(Idle)
      else s.clip)
  {
    var t := MoveRotator(cfg, s.(cameraTarget := HomeTarget), 20.0);
    if !cfg.modelPresent then t
    else if Face in cfg.clips && !s.hasPushed then t.(clip := Some(Face))
    else if Idle in cfg.clips then t.(clip := Some(Idle))
    else t
  }

  /** The callback a section's scroll trigger runs when crossed in direction `dir`. Section 4's
      leave guards test a property the clump's handle does not have, so they never pass and its
      re-entry guard always does. */
  function Callback(cfg: Config, s: Scene, section: nat, dir: Direction): (r: Scene)
    ensures section != 5 ==> LatchKept(s, r) && ClumpKept(s, r)
    ensures section == 5 ==> r == if dir == Enter then EnterFinale(cfg, s) else s
  {
    if section <= 1 then IntroCallback(cfg, s, section, dir)
    else if section <= 3 then CameraCallback(cfg, s, section, dir)
    else if section == 4 then (if dir == Enter || dir == EnterBack then ActivateClump(s) else s)
    else if section == 5 then (if dir == Enter then EnterFinale(cfg, s) else s)
    else if section == 6 then (if dir == Enter then EnterCloseUp(cfg, s) else s)
    else s
  }

  /** A scroll trigger firing: only a registered (and not yet killed) trigger runs its callback. */
  function OnSection(cfg: Config, s: Scene, section: nat, dir: Direction): (r: Scene)
    ensures section !in s.triggers ==> r == s
    ensures r.triggers == s.triggers && r.mainTimeline == s.mainTimeline
  {
    if section in s.triggers then Callback(cfg, s, section, dir) else s
  }

  /** The explosion timeout firing: the clump, when mounted, explodes for good and the earth
      stops; the timeout ref is cleared either way. */
  function ExplosionFires(s: Scene): (r: Scene)
    ensures s.explosionTimer.None? ==> r == s
    ensures s.explosionTimer.Some? ==> (
      && r.explosionTimer == None
      && (r.clump.Some? <==> s.clump.Some?)
      && (s.clump.Some? && s.clump.value.meshPresent ==> r.clump.value.permanentlyExploded && !r.clump.value.visible)
      && (s.clump.Some? ==> !r.earthRotating && r.explosions == s.explosions + 1)
      && (s.clump.None? ==> r.earthRotating == s.earthRotating && r.explosions == s.explosions))
  {
    if s.explosionTimer.None? then s
    else
      var t := s.(explosionTimer := None);
      match s.clump
      case None => t
      case Some(c) =>
        t.(clump := Some(Clump.PermanentExplosion(c, ExplosionForce).state), earthRotating := false, explosions := s.explosions + 1)
  }

  /** The delayed `startEarthRotation` of the opening firing. */
  function EarthTimerFires(s: Scene): (r: Scene)
    ensures s.earthTimers == 0 ==> r == s
    ensures s.earthTimers > 0 ==> r == s.(earthRotating := true, earthTimers := s.earthTimers - 1)
  {
    if s.earthTimers == 0 then s else s.(earthRotating := true, earthTimers := s.earthTimers - 1)
  }

  /** The PUSH transition's completion callback: on to IDLE when available. */
  function PushCompletes(cfg: Config, s: Scene): (r: Scene)
    ensures !s.pushPending ==> r == s
    ensures s.pushPending ==> !r.pushPending && r.clip == (if Idle in cfg.clips then Some(Idle) else s.clip)
  {
    if !s.pushPending then s
    else s.(pushPending := false, clip := if Idle in cfg.clips then Some(Idle) else s.clip)
  }

  datatype Event =
    | SetupRuns
    | CleanupRuns
    | Crossed(section: nat, dir: Direction)
    | ExplosionTimeout
    | EarthTimeout
    | PushDone

  function Step(cfg: Config, s: Scene, e: Event): Scene {
    match e
    case SetupRuns => Setup(cfg, s)
    case CleanupRuns => CleanupTimeline(s)
    case Crossed(section, dir) => OnSection(cfg, s, section, dir)
    case ExplosionTimeout => ExplosionFires(s)
    case EarthTimeout => EarthTimerFires(s)
    case PushDone => PushCompletes(cfg, s)
  }

  function Run(cfg: Config, s: Scene, es: seq<Event>): Scene
    decreases |es|
  {
    if |es| == 0 then s else Run(cfg, Step(cfg, s, es[0]), es[1..])
  }

  /** Bookkeeping of the PUSH latch: one timeout is scheduled exactly when the latch is set, and
      at most one explosion is pending or done for it. */
  ghost predicate Inv(s: Scene) {
    && s.explosionsScheduled == (if s.hasPushed then 1 else 0)
    && s.explosions + (if s.explosionTimer.Some? then 1 else 0) <= s.explosionsScheduled
  }

  lemma StepKeepsInv(cfg: Config, s: Scene, e: Event)
    requires Inv(s)
    ensures Inv(Step(cfg, s, e))
    ensures s.hasPushed ==> Step(cfg, s, e).hasPushed
  {
    match e
    case Crossed(section, dir) =>
      if section in s.triggers && section == 5 && dir == Enter {
        assert Step(cfg, s, e) == EnterFinale(cfg, s);
      }
    case _ =>
  }

  /** The PUSH latch never resets while the component stays mounted, and over the whole mount
      the explosion is scheduled at most once and triggered at most once. */
  lemma {:induction false} PushAtMostOnce(cfg: Config, s: Scene, es: seq<Event>)
    requires Inv(s)
    ensures Inv(Run(cfg, s, es))
    ensures s.hasPushed ==> Run(cfg, s, es).hasPushed
    ensures Run(cfg, s, es).explosionsScheduled <= 1 && Run(cfg, s, es).explosions <= 1
    decreases |es|
  {
    if |es| > 0 {
      StepKeepsInv(cfg, s, es[0]);
      PushAtMostOnce(cfg, Step(cfg, s, es[0]), es[1..]);
    }
  }

  /** From mount, at most one explosion is ever triggered. */
  lemma OneExplosionPerMount(cfg: Config, clump: Option<Clump.State>, es: seq<Event>)
    ensures Run(cfg, Mount(clump), es).explosions <= 1
  {
    PushAtMostOnce(cfg, Mount(clump), es);
  }

  /** The clump is only ever made to explode by the explosion timeout. */
  lemma StepNeverExplodes(cfg: Config, s: Scene, e: Event)
    requires e != ExplosionTimeout
    ensures (Step(cfg, s, e).clump.Some? <==> s.clump.Some?)
    ensures s.clump.Some? ==> Step(cfg, s, e).clump.value.permanentlyExploded == s.clump.value.permanentlyExploded
    ensures s.explosionTimer.None? ==> Step(cfg, s, e).explosionTimer.None? || !s.hasPushed
  {
    match e
    case Crossed(section, dir) =>
      if section in s.triggers && section == 5 && dir == Enter {
        assert Step(cfg, s, e) == EnterFinale(cfg, s);
      }
    case _ =>
  }

  /** A cleanup while the explosion is pending loses it for good: the latch stays set, so no
      later entry into section 5 schedules it again, and the clump never explodes during the
      rest of the mount. */
  lemma {:induction false} CleanupLosesExplosion(cfg: Config, s: Scene, es: seq<Event>)
    requires s.hasPushed && s.explosionTimer.None? && s.clump.Some? && !s.clump.value.permanentlyExploded
    ensures Run(cfg, s, es).clump.Some? && !Run(cfg, s, es).clump.value.permanentlyExploded
    decreases |es|
  {
    if |es| > 0 {
      var e := es[0];
      var next := Step(cfg, s, e);
      if e == ExplosionTimeout {
        assert next == s;
      } else {
        StepNeverExplodes(cfg, s, e);
        assert next.hasPushed by {
          match e
          case Crossed(section, dir) =>
            if section in s.triggers && section == 5 && dir == Enter {
              assert next == EnterFinale(cfg, s);
            }
          case _ =>
        }
      }
      CleanupLosesExplosion(cfg, next, es[1..]);
    }
  }

  /** Scrolling back up through sections 1 to 3 points the camera where entering the section
      before it did, and leaving section 1 backwards resumes section 0's walk. */
  lemma LeaveBackRestoresCamera(cfg: Config, s: Scene, before: Scene, k: nat)
    requires 1 <= k <= 3 && k in s.triggers && (k - 1) in before.triggers
    requires k == 1 ==> Salute in cfg.clips && cfg.modelPresent
    ensures OnSection(cfg, s, k, LeaveBack).cameraTarget == OnSection(cfg, before, k - 1, Enter).cameraTarget
    ensures k == 1 ==>
      && OnSection(cfg, s, 1, LeaveBack).clip == OnSection(cfg, before, 0, Enter).clip
      && OnSection(cfg, s, 1, LeaveBack).earthRotating == OnSection(cfg, before, 0, Enter).earthRotating
  {
  }

  /** Section 4's leave callbacks never deactivate the clump or hide its shield. */
  lemma LeavingClumpSectionKeepsClump(cfg: Config, s: Scene, dir: Direction)
    requires dir == Leave || dir == LeaveBack
    ensures OnSection(cfg, s, 4, dir) == s
  {
  }

  /** Scrolling back into section 4 after the explosion shows the shield again, although the
      clump refuses to reactivate and stays exploded. */
  lemma ShieldReturnsAfterExplosion(cfg: Config, s: Scene)
    requires 4 in s.triggers && s.clump.Some? && s.clump.value.permanentlyExploded
    ensures var c := OnSection(cfg, s, 4, EnterBack).clump.value;
      c.visible && c.permanentlyExploded && c.active == s.clump.value.active
  {
  }

  /** Without the character nothing is ever registered: the set-up stops before registering,
      so from mount no section callback runs and the PUSH latch is never set. */
  lemma {:induction false} NoCharacterNoCallbacks(cfg: Config, s: Scene, es: seq<Event>)
    requires !cfg.modelPresent && s.triggers == [] && !s.hasPushed
    ensures Run(cfg, s, es).triggers == [] && !Run(cfg, s, es).hasPushed
    decreases |es|
  {
    if |es| > 0 {
      var next := Step(cfg, s, es[0]);
      assert next.triggers == [] && !next.hasPushed;
      NoCharacterNoCallbacks(cfg, next, es[1..]);
    }
  }
}

=== FILE: scroll_controller.dfy ===
/** `ScrollAnimationController` of `src/utils/animationControlSystem.js`: a list of clip actions,
    each bound to a window of scroll progress, kept ordered by where the window starts, and driven
    by `update(progress)`. */
module ScrollController {
  import opened Optional
  import opened Clips
  import opened Sequences

  /** The argument of `addAnimation`: where the window starts, how long it is, and the action. */
  datatype AnimationSpec = AnimationSpec(triggerPoint: real, duration: PosReal, action: Action)

  /** One registered animation. `mixerTime` is the time the controller last set on the action's
      mixer (`None` until it sets one). */
  datatype Anim = Anim(
    triggerPoint: real,
    duration: PosReal,
    action: Action,
    currentWeight: real,
    isPlaying: bool,
    mixerTime: Option<real>)

  datatype Controller = Controller(animations: seq<Anim>, currentProgress: real, previousProgress: real)

  /** The state the constructor builds. */
  const Initial := Controller([], 0.0, 0.0)

  /** Progress changes smaller than this are ignored as jitter. */
  const Jitter: real := 0.001

  /** A playing animation this close to its trigger point stays activated. */
  const Margin: real := 0.1

  function Abs(x: real): real {
    if x < 0.0 then -x else x
  }

  ghost predicate SortedByTrigger(s: seq<Anim>) {
    forall i, j :: 0 <= i < j < |s| ==> s[i].triggerPoint <= s[j].triggerPoint
  }

  /** The sort key: ascending trigger points are descending negated ones. */
  function NegatedTrigger(a: Anim): real {
    -a.triggerPoint
  }

  /** The entry `addAnimation` pushes: not playing, weight 0. */
  function Fresh(spec: AnimationSpec): (a: Anim)
    ensures !a.isPlaying && a.currentWeight == 0.0 && a.mixerTime.None?
    ensures a.triggerPoint == spec.triggerPoint && a.duration == spec.duration && a.action == spec.action
  {
    Anim(spec.triggerPoint, spec.duration, spec.action, 0.0, false, None)
  }

  /** `addAnimation(spec)`: push a fresh entry, then sort the whole list by trigger point. The
      list grows by exactly that entry and ends ordered, whatever order it had. */
  function AddAnimation(c: Controller, spec: AnimationSpec): (r: Controller)
    ensures |r.animations| == |c.animations| + 1
    ensures multiset(r.animations) == multiset(c.animations) + multiset{Fresh(spec)}
    ensures SortedByTrigger(r.animations)
    ensures r.previousProgress == c.previousProgress && r.currentProgress == c.currentProgress
  {
    var sorted := SortDesc(c.animations + [Fresh(spec)], NegatedTrigger);
    assert forall i, j :: 0 <= i < j < |sorted| ==> NegatedTrigger(sorted[i]) >= NegatedTrigger(sorted[j]);
    c.(animations := sorted)
  }

  /** `max(0, min(1, (progress - triggerPoint) / duration))`: how far through its window the
      animation is. */
  function LocalProgress(triggerPoint: real, duration: PosReal, progress: real): (lp: real)
    ensures 0.0 <= lp <= 1.0
    ensures triggerPoint <= progress <= triggerPoint + duration ==> lp == (progress - triggerPoint) / duration
    ensures progress <= triggerPoint ==> lp == 0.0
    ensures progress >= triggerPoint + duration ==> lp == 1.0
  {
    var x := (progress - triggerPoint) / duration;
    assert x * duration == progress - triggerPoint;
    var m := if 1.0 < x then 1.0 else x;
    if 0.0 > m then 0.0 else m
  }

  /** A fraction of a positive length, or its complement, lies between 0 and that length. */
  lemma FractionBounds(lp: real, clip: PosReal)
    requires 0.0 <= lp <= 1.0
    ensures 0.0 <= lp * clip <= clip && 0.0 <= (1.0 - lp) * clip <= clip
  {
    assert lp * clip + (1.0 - lp) * clip == clip;
    assert 0.0 <= (1.0 - lp) * clip;
  }

  /** `progress` lies in the half-open window `[triggerPoint, triggerPoint + duration)`. */
  predicate InWindow(a: Anim, progress: real) {
    progress >= a.triggerPoint && progress < a.triggerPoint + a.duration
  }

  /** `progress` lies outside the closed window `[triggerPoint, triggerPoint + duration]`. */
  predicate OutsideWindow(a: Anim, progress: real) {
    progress < a.triggerPoint || progress > a.triggerPoint + a.duration
  }

  /** The action replays once from the start and holds its last frame. */
  ghost predicate Restarted(a: Action) {
    a.isRunning && !a.paused && a.time == 0.0 && a.loop == LoopOnce && a.clampWhenFinished
  }

  /** The time set on the mixer of a playing animation: the local progress of the clip when
      scrolling down, its complement when scrolling up. */
  function MixerTime(lp: real, clip: PosReal, scrollingDown: bool): (t: real)
    requires 0.0 <= lp <= 1.0
    ensures 0.0 <= t <= clip
  {
    FractionBounds(lp, clip);
    if scrollingDown then lp * clip else (1.0 - lp) * clip
  }

  /** The first half of one loop iteration: a non-playing animation whose window holds the
      progress starts playing, its action rewound, set to play once with clamping, and played. */
  function Activate(a: Anim, progress: real): (r: Anim)
    ensures r.triggerPoint == a.triggerPoint && r.duration == a.duration && r.currentWeight == a.currentWeight
    ensures r.mixerTime == a.mixerTime && SameClip(r.action, a.action) && r.action.weight == a.action.weight
    ensures r.isPlaying <==> a.isPlaying || InWindow(a, progress)
    ensures !a.isPlaying && InWindow(a, progress) ==> Restarted(r.action)
    ensures a.isPlaying || !InWindow(a, progress) ==> r == a
  {
    var shouldActivate := InWindow(a, progress) || (a.isPlaying && Abs(progress - a.triggerPoint) < Margin);
    if shouldActivate && !a.isPlaying then a.(isPlaying := true, action := Play(OnceClamped(Reset(a.action))))
    else a
  }

  /** The second half: a playing animation scrubs its mixer and stops playing once the progress
      is outside its closed window. */
  function Scrub(a: Anim, progress: real, scrollingDown: bool): (r: Anim)
    ensures r.triggerPoint == a.triggerPoint && r.duration == a.duration && r.currentWeight == a.currentWeight
    ensures r.action == a.action
    ensures r.isPlaying <==> a.isPlaying && !OutsideWindow(a, progress)
    ensures a.isPlaying ==>
      r.mixerTime == Some(MixerTime(LocalProgress(a.triggerPoint, a.duration, progress), a.action.duration, scrollingDown))
    ensures !a.isPlaying ==> r == a
  {
    if a.isPlaying then
      var lp := LocalProgress(a.triggerPoint, a.duration, progress);
      var clipDuration := a.action.duration;
      var scrubbed := a.(mixerTime := Some(MixerTime(lp, clipDuration, scrollingDown)));
      if OutsideWindow(a, progress) then scrubbed.(isPlaying := false) else scrubbed
    else a
  }

  /** One iteration of the loop in `update(progress)`: activate the animation when progress is in
      its window (or it is playing and near its trigger point), scrub its mixer while it plays,
      and deactivate it once progress leaves the closed window. */
  function UpdateAnim(a: Anim, progress: real, scrollingDown: bool): (r: Anim)
    ensures r.triggerPoint == a.triggerPoint && r.duration == a.duration && r.currentWeight == a.currentWeight
    ensures OutsideWindow(a, progress) ==> !r.isPlaying
    ensures InWindow(a, progress) ==> r.isPlaying
    ensures !a.isPlaying && InWindow(a, progress) ==>
      Restarted(Activate(a, progress).action) && SameClip(r.action, a.action) && r.action.weight == a.action.weight
    ensures r.action == Activate(a, progress).action
    ensures !a.isPlaying && !InWindow(a, progress) ==> r == a
    ensures a.isPlaying ==> r.action == a.action
    ensures (a.isPlaying || InWindow(a, progress)) ==>
      r.mixerTime == Some(MixerTime(LocalProgress(a.triggerPoint, a.duration, progress), a.action.duration, scrollingDown))
  {
    Scrub(Activate(a, progress), progress, scrollingDown)
  }

  /** `update(progress)`. A change below the jitter threshold is ignored altogether, including
      `previousProgress`; any other call visits every entry in list order and then records the
      progress, leaving the list's length and order alone. */
  function Update(c: Controller, progress: real): (r: Controller)
    ensures Abs(progress - c.previousProgress) < Jitter ==> r == c
    ensures Abs(progress - c.previousProgress) >= Jitter ==> r.previousProgress == progress
    ensures r.currentProgress == c.currentProgress
    ensures |r.animations| == |c.animations|
    ensures forall i :: 0 <= i < |c.animations| ==>
      r.animations[i].triggerPoint == c.animations[i].triggerPoint && r.animations[i].duration == c.animations[i].duration
    ensures SortedByTrigger(c.animations) ==> SortedByTrigger(r.animations)
  {
    var scrollingDown := progress > c.previousProgress;
    var delta := progress - c.previousProgress;
    if Abs(delta) < Jitter then c
    else
      var anims := c.animations;
      c.(animations := seq(|anims|, i requires 0 <= i < |anims| => UpdateAnim(anims[i], progress, scrollingDown)),
         previousProgress := progress)
  }

  /** After an update that is not ignored, an entry is playing whenever progress is inside its
      half-open window, and never when progress is outside its closed window. */
  lemma UpdateActivation(c: Controller, progress: real, i: nat)
    requires Abs(progress - c.previousProgress) >= Jitter
    requires i < |c.animations|
    ensures var a := c.animations[i];
      var r := Update(c, progress).animations[i];
      (InWindow(a, progress) ==> r.isPlaying) && (OutsideWindow(a, progress) ==> !r.isPlaying)
  {
  }

  /** An entry that was not playing and whose window now holds the progress is started: before
      its mixer is scrubbed in the same iteration, its action is rewound, set to play once with
      clamping, and played. The update leaves it playing, scheduled, once and clamped. */
  lemma UpdateStarts(c: Controller, progress: real, i: nat)
    requires Abs(progress - c.previousProgress) >= Jitter
    requires i < |c.animations| && !c.animations[i].isPlaying && InWindow(c.animations[i], progress)
    ensures Restarted(Activate(c.animations[i], progress).action)
    ensures var r := Update(c, progress).animations[i];
      r.isPlaying && r.action.isRunning && r.action.loop == LoopOnce && r.action.clampWhenFinished
  {
  }

  /** The mixer time an update sets is the local progress (clamped to `[0, 1]`) scaled to the
      clip when scrolling forward, and its complement when scrolling back, so it never leaves
      `[0, clip duration]`. */
  lemma UpdateScrubs(c: Controller, progress: real, i: nat)
    requires Abs(progress - c.previousProgress) >= Jitter
    requires i < |c.animations|
    requires c.animations[i].isPlaying || InWindow(c.animations[i], progress)
    ensures var a := c.animations[i];
      var t := Update(c, progress).animations[i].mixerTime;
      var lp := LocalProgress(a.triggerPoint, a.duration, progress);
      && 0.0 <= lp <= 1.0
      && t == Some(MixerTime(lp, a.action.duration, progress > c.previousProgress))
      && 0.0 <= t.value <= a.action.duration
  {
    var a := c.animations[i];
    assert Update(c, progress).animations[i] == UpdateAnim(a, progress, progress > c.previousProgress);
  }

  /** `dispose()`: stops every action and empties the list. The stopped actions are returned
      alongside the new controller. */
  function Dispose(c: Controller): (r: (Controller, seq<Action>))
    ensures r.0.animations == []
    ensures r.0.previousProgress == c.previousProgress && r.0.currentProgress == c.currentProgress
    ensures |r.1| == |c.animations|
    ensures forall i :: 0 <= i < |r.1| ==> !r.1[i].isRunning && SameClip(r.1[i], c.animations[i].action)
  {
    var anims := c.animations;
    (c.(animations := []), seq(|anims|, i requires 0 <= i < |anims| => Stop(anims[i].action)))
  }

  /** Disposing twice leaves the controller as disposing once, and the second call stops nothing. */
  lemma DisposeIdempotent(c: Controller)
    ensures Dispose(Dispose(c).0).0 == Dispose(c).0
    ensures Dispose(Dispose(c).0).1 == []
  {
  }

  /** The public operations of the controller. */
  datatype Op = Add(spec: AnimationSpec) | UpdateTo(progress: real) | DisposeAll

  function Step(c: Controller, op: Op): Controller {
    match op
    case Add(spec) => AddAnimation(c, spec)
    case UpdateTo(p) => Update(c, p)
    case DisposeAll => Dispose(c).0
  }

  function Run(c: Controller, ops: seq<Op>): Controller
    decreases |ops|
  {
    if |ops| == 0 then c else Run(Step(c, ops[0]), ops[1..])
  }

  /** Whatever the calls, the list stays ordered by trigger point. */
  lemma {:induction false} RunKeepsOrder(c: Controller, ops: seq<Op>)
    requires SortedByTrigger(c.animations)
    ensures SortedByTrigger(Run(c, ops).animations)
    decreases |ops|
  {
    if |ops| > 0 {
      RunKeepsOrder(Step(c, ops[0]), ops[1..]);
    }
  }
}

=== FILE: sequences.dfy ===
/** Ordering and filtering of sequences, as JavaScript's `Array.prototype.sort` (stable since
    ECMAScript 2019) and `Array.prototype.filter` do them. Every sort in the modelled code orders by
    a numeric key; an ascending order is a descending order on the negated key. */
module Sequences {

  /** `s` is ordered by `key`, largest first. */
  ghost predicate SortedDesc<T>(s: seq<T>, key: T -> real) {
    forall i, j :: 0 <= i < j < |s| ==> key(s[i]) >= key(s[j])
  }

  /** Inserts `x` in front of the first element whose key does not exceed its own, so that `x` stays
      ahead of later elements with an equal key. */
  function Insert<T>(x: T, s: seq<T>, key: T -> real): (r: seq<T>)
    requires SortedDesc(s, key)
    ensures SortedDesc(r, key)
    ensures multiset(r) == multiset(s) + multiset{x}
    ensures |r| == |s| + 1
    ensures r[0] == if |s| == 0 || key(s[0]) <= key(x) then x else s[0]
  {
    if |s| == 0 then [x]
    else if key(s[0]) <= key(x) then [x] + s
    else
      var rest := Insert(x, s[1..], key);
      assert s == [s[0]] + s[1..];
      assert forall y :: y in rest ==> y == x || y in s[1..] by {
        forall y | y in rest ensures y == x || y in s[1..] {
          assert y in multiset(rest);
        }
      }
      [s[0]] + rest
  }

  /** Stable insertion sort, largest key first: the comparator `(a, b) => key(b) - key(a)`. */
  function SortDesc<T>(s: seq<T>, key: T -> real): (r: seq<T>)
    ensures SortedDesc(r, key)
    ensures multiset(r) == multiset(s)
    ensures |r| == |s|
  {
    if |s| == 0 then []
    else
      assert s == [s[0]] + s[1..];
      Insert(s[0], SortDesc(s[1..], key), key)
  }

  /** The first position holding a largest key: the element a stable descending sort puts first. */
  function FirstMax<T>(s: seq<T>, key: T -> real): (i: nat)
    requires |s| > 0
    ensures i < |s|
    ensures forall j :: 0 <= j < |s| ==> key(s[j]) <= key(s[i])
    ensures forall j :: 0 <= j < i ==> key(s[j]) < key(s[i])
  {
    if |s| == 1 then 0
    else
      var k := FirstMax(s[1..], key);
      if key(s[0]) >= key(s[1..][k]) then 0 else k + 1
  }

  /** The head of the stable sort is the first element with the largest key, so ties go to the
      element that came first. */
  lemma {:induction false} SortHeadIsFirstMax<T>(s: seq<T>, key: T -> real)
    requires |s| > 0
    ensures SortDesc(s, key)[0] == s[FirstMax(s, key)]
  {
    if |s| > 1 {
      SortHeadIsFirstMax(s[1..], key);
    }
  }

  /** Every element of a non-empty sequence has a key no larger than the key of the sorted head. */
  lemma SortHeadIsMax<T>(s: seq<T>, key: T -> real)
    requires |s| > 0
    ensures SortDesc(s, key)[0] in s
    ensures forall x :: x in s ==> key(x) <= key(SortDesc(s, key)[0])
  {
    var r := SortDesc(s, key);
    assert r[0] in multiset(r);
    forall x | x in s ensures key(x) <= key(r[0]) {
      assert x in multiset(s);
      var j :| 0 <= j < |r| && r[j] == x;
      if j > 0 {
        assert key(r[0]) >= key(r[j]);
      }
    }
  }

  /** The elements of `s` satisfying `p`, in their original order. */
  function Filter<T(!new)>(s: seq<T>, p: T -> bool): (r: seq<T>)
    ensures |r| <= |s|
    ensures forall x :: multiset(r)[x] == if p(x) then multiset(s)[x] else 0
    ensures forall x :: x in r <==> x in s && p(x)
  {
    if |s| == 0 then []
    else
      assert s == [s[0]] + s[1..];
      var rest := Filter(s[1..], p);
      if p(s[0]) then [s[0]] + rest else rest
  }
}

=== FILE: smooth_scroll.dfy ===
/** The eased scrolling of `src/utils/useSmoothScroll.jsx`: wheel input moves a target offset,
    clamped to the scrollable distance, and every animation frame moves the current offset a fixed
    fraction of the way towards it and translates the container by the opposite amount. The DOM
    measurements (`offsetHeight`, `innerHeight`) and the wheel's `deltaY` are parameters. */
module SmoothScroll {

  /** The hook's options. */
  datatype Options = Options(easeSpeed: real, scrollSpeed: real)

  /** The hook's closure state: target and current offsets, the scrollable distance and the
      container's vertical translation. */
  datatype State = State(target: real, current: real, maxScroll: real, containerY: real)

  function Max(a: real, b: real): real { if a < b then b else a }
  function Min(a: real, b: real): real { if a < b then a else b }
  function Abs(x: real): real { if x < 0.0 then -x else x }

  /** `updateMaxScroll`: the container's height beyond one viewport, never negative. */
  function UpdateMaxScroll(s: State, offsetHeight: real, innerHeight: real): (r: State)
    ensures r.maxScroll >= 0.0 && r.maxScroll >= offsetHeight - innerHeight
    ensures r.maxScroll == 0.0 || r.maxScroll == offsetHeight - innerHeight
    ensures r.(maxScroll := s.maxScroll) == s
  {
    s.(maxScroll := Max(0.0, offsetHeight - innerHeight))
  }

  /** `onWheel`: moves the target by the scaled wheel delta and clamps it to `[0, maxScroll]`. */
  function OnWheel(s: State, deltaY: real, opts: Options): (r: State)
    ensures r.target >= 0.0
    ensures s.maxScroll >= 0.0 ==> r.target <= s.maxScroll
    ensures var wanted := s.target + deltaY * opts.scrollSpeed;
      0.0 <= wanted <= s.maxScroll ==> r.target == wanted
    ensures var wanted := s.target + deltaY * opts.scrollSpeed;
      r.target == wanted || r.target == 0.0 || r.target == s.maxScroll
    ensures r.(target := s.target) == s
  {
    var wanted := s.target + deltaY * opts.scrollSpeed;
    s.(target := Max(0.0, Min(wanted, s.maxScroll)))
  }

  /** One frame of `smoothScroll`: the current offset eases towards the target and the container
      is translated by its opposite. */
  function Step(s: State, ease: real): (r: State)
    ensures r.containerY == -r.current
    ensures r.target == s.target && r.maxScroll == s.maxScroll
    ensures r.current - s.target == (s.current - s.target) * (1.0 - ease)
  {
    var current := s.current + (s.target - s.current) * ease;
    s.(current := current, containerY := -current)
  }

  /** The state once `init` has run: offsets at zero, the scrollable distance measured and one
      frame drawn. */
  function Init(offsetHeight: real, innerHeight: real, opts: Options): (s: State)
    ensures s.target == 0.0 && s.current == 0.0 && s.containerY == 0.0
    ensures s.maxScroll == Max(0.0, offsetHeight - innerHeight)
  {
    Step(UpdateMaxScroll(State(0.0, 0.0, 0.0, 0.0), offsetHeight, innerHeight), opts.easeSpeed)
  }

  /** With an ease factor in `(0, 1]`, a frame never overshoots: the current offset lands between
      where it was and the target, strictly closer unless it was already there. */
  lemma StepApproaches(s: State, ease: real)
    requires 0.0 < ease <= 1.0
    ensures var c := Step(s, ease).current;
      && Min(s.current, s.target) <= c <= Max(s.current, s.target)
      && Abs(c - s.target) <= Abs(s.current - s.target)
      && (s.current != s.target && ease < 1.0 ==> Abs(c - s.target) < Abs(s.current - s.target))
      && (s.current == s.target ==> c == s.target)
  {
    var d := s.current - s.target;
    var c := Step(s, ease).current;
    assert c - s.target == d * (1.0 - ease);
    if d > 0.0 {
      assert 0.0 <= d * (1.0 - ease) <= d;
      assert ease < 1.0 ==> d * (1.0 - ease) < d;
    } else if d < 0.0 {
      assert d <= d * (1.0 - ease) <= 0.0;
      assert ease < 1.0 ==> d < d * (1.0 - ease);
    }
  }

  /** `x` raised to the power `n`. */
  function Pow(x: real, n: nat): real {
    if n == 0 then 1.0 else x * Pow(x, n - 1)
  }

  /** `n` frames with a fixed target. */
  function Steps(s: State, ease: real, n: nat): State
    decreases n
  {
    if n == 0 then s else Steps(Step(s, ease), ease, n - 1)
  }

  /** After `n` frames the remaining distance is the initial one scaled by `(1 - ease)^n`: the
      exponential approach the easing promises, with the target never reached exactly unless the
      ease is 1 or the offset started on it. */
  lemma {:induction false} StepsDistance(s: State, ease: real, n: nat)
    ensures Steps(s, ease, n).target == s.target && Steps(s, ease, n).maxScroll == s.maxScroll
    ensures Steps(s, ease, n).current - s.target == (s.current - s.target) * Pow(1.0 - ease, n)
    decreases n
  {
    if n > 0 {
      var next := Step(s, ease);
      StepsDistance(next, ease, n - 1);
      calc {
        Steps(s, ease, n).current - s.target;
        (next.current - s.target) * Pow(1.0 - ease, n - 1);
        ((s.current - s.target) * (1.0 - ease)) * Pow(1.0 - ease, n - 1);
        (s.current - s.target) * ((1.0 - ease) * Pow(1.0 - ease, n - 1));
      }
    }
  }

  /** Target and current offset both lie within the scrollable distance. */
  ghost predicate Inv(s: State) {
    0.0 <= s.maxScroll && 0.0 <= s.target <= s.maxScroll && 0.0 <= s.current <= s.maxScroll
  }

  lemma InitInv(offsetHeight: real, innerHeight: real, opts: Options)
    ensures Inv(Init(offsetHeight, innerHeight, opts))
  {
  }

  /** Wheel events and frames keep both offsets within range. */
  lemma WheelAndStepKeepInv(s: State, deltaY: real, opts: Options, ease: real)
    requires Inv(s) && 0.0 < ease <= 1.0
    ensures Inv(OnWheel(s, deltaY, opts))
    ensures Inv(Step(s, ease))
  {
    StepApproaches(s, ease);
  }

  /** A resize that shrinks the page is not followed by a clamp: the target (and the current
      offset) can be left beyond the new scrollable distance until the next wheel event. */
  lemma ResizeCanStrandTarget()
    ensures var s := State(500.0, 500.0, 500.0, -500.0);
      var r := UpdateMaxScroll(s, 900.0, 800.0);
      Inv(s) && !Inv(r) && r.target > r.maxScroll
  {
  }

  /** The next wheel event brings a stranded target back into range, whatever its delta. */
  lemma WheelReclamps(s: State, deltaY: real, opts: Options)
    requires s.maxScroll >= 0.0
    ensures 0.0 <= OnWheel(s, deltaY, opts).target <= s.maxScroll
  {
  }
}
